=== FILE: README.md ===
# mala: a Dafny model of the string extractor, its readability scorer and the pure helpers around them

mala is a malware-sample triage pipeline. Its Rust helper `mala_strings` scans a
binary file for maximal runs of printable ASCII bytes (32..126) at least six
bytes long. It scores each run for "human readability" by comparing its
character frequencies with a fixed reference alphabet (`EMERGENT`). It prints
the runs scoring at least 40, with their file offsets, in file order. The Python
side parses tool command lines, parses `strings -t` output, scores strings with a
related formula, and builds SQL insert statements. It uploads strings in batches of
256, and spreads the target files over worker processes by size.

The model has one module per component:

- `Extractor` (extractor.dfy): `is_printable` and the byte loop of
  `extract_strings`, written as an imperative method over the reader's
  answers. It is proved equal to a recursive reference definition of the
  maximal printable runs (`Runs`). That reference is proved sound, complete
  and ordered. The output is also proved independent of how the file is cut
  into buffers.
- `Scorer` (scorer.dfy): the integer skeleton of `enhanced_human_readable`:
  the empty/over-length guard, the 95-entry `EMERGENT` alphabet, the frequency
  vector, the rank vector 95..1, the distinct-character count, and the `i32`
  bounds of the sums that `cosine_similarity` forms.
- `StringsMain` (strings_main.dfy): `main`, which extracts with minimum
  length 6, keeps scores >= 40, and preserves extraction order.
- `ToolRunner` (tool_runner.dfy): `parse_tool_cmdline`, the `tool_configs`
  table, `str.strip`, `parse_strings_data` with even-length address padding,
  `simple_human_readable`, and the Python `enhanced_human_readable` guard.
- `SqlBuilder` (sql_builder.dfy): `generate_insert_statement` (the same code
  in mala_dao.py and dao.py), with quote doubling and a reader for SQL string
  literals that shows the doubling is undone exactly.
- `MalaDao` (mala_dao.dfy): the `returning id;` suffix, the 256-item batching
  loop of `insert_string_instances`, and the line splitting of
  `insert_mala_strings`.
- `CutterDao` (cutter_dao.dfy): the quote-doubled transcript queries of
  dao.py.
- `Core` (core.dfy): the file-limit cut in `run`, `collate_stats`, and the
  greedy largest-first `balance_target_file_chunks`.
- `TextUtil`, `Results` (text_util.dfy): shared sequence helpers
  (`Count`, `Sum`, `Flatten`, Python `split`/`join`, clamped slicing) and the
  `Result`/`Option` datatypes.

Parameters stand in for what cannot be modelled:

- `open` maps the path to a `FileInput`: unopenable, or a sequence of read
  answers. Each answer is a filled buffer, an empty buffer (end of file) or a
  read error.
- `combine` stands for the floating-point part of the score. That part is
  the cosine similarity, the diversity ratio, the weights 100 and 50, and the
  truncation. In the Python scorer, the one floating-point case that raises
  (NaN from an all-zero text vector) is modelled outside `combine`.
- `sizeOf` stands for `os.path.getsize`.
- `decode` stands for `json.loads`.
- `numBins` stands for `THREAD_LIMIT`.

The database is represented by the list of stored-procedure calls the code
would make.

## Model

| member | source | states |
|---|---|---|
| Extractor.IsPrintable | mala_strings.rs:56-58 | A byte is printable from space (32) through tilde (126); the runs it delimits are characterised by RunsSound and RunsComplete |
| Extractor.Scan | mala_strings.rs:60-99 | The byte loop and end-of-file flush produce exactly the maximal printable runs (reference `Runs`) of the bytes the reader delivered, and report whether the loop stopped on a read error |
| Extractor.ScanChunk | mala_strings.rs:73-89 | Processing one buffer advances the absolute position by the buffer length (never reset at a buffer boundary) and keeps the scan invariant: the accumulator is the current printable stretch, starting where it was first non-empty |
| Extractor.ScanPrintable | mala_strings.rs:74-78 | A printable byte is appended to the accumulator, and the run's start offset is set to the current position only when the accumulator was empty |
| Extractor.ScanNonPrintable | mala_strings.rs:79-87 | A non-printable byte emits the accumulator, at its start offset, iff it is at least `min_length` long, then clears it either way; the scan invariant is kept |
| Extractor.ScanFlush | mala_strings.rs:92-97 | At end of input a pending run of at least `min_length` bytes is emitted, which completes the reference runs even with no trailing non-printable byte |
| Extractor.Decode | mala_strings.rs:83 | `from_utf8_lossy` on a printable run keeps the length and maps each byte to the character with that code |
| Extractor.RunsSound | mala_strings.rs:73-97 | Every emitted candidate is a maximal printable run (bounded by a non-printable byte or a file end on both sides), at least `min_length` long, whose text is the bytes at its offset |
| Extractor.RunsComplete | mala_strings.rs:73-97 | Every maximal printable run of at least `min_length` bytes is emitted at its start offset, including a run that ends at end of file |
| Extractor.RunsOrdered | mala_strings.rs:73-90 | Emitted runs are in file order and do not touch: each ends strictly before the next begins, so offsets strictly increase and no run is emitted twice |
| Extractor.RunEndAt | mala_strings.rs:74-79 | A printable stretch bounded by a non-printable byte or the end of the data ends exactly there |
| Extractor.ChunkingIrrelevant | mala_strings.rs:65-89 | However the file is cut into non-empty buffers, the loop consumes exactly the file's bytes, does not report a failure, and gives the same candidates as for the unbuffered bytes |
| Extractor.ExtractStrings | mala_strings.rs:60-100 | As written: an unopenable file is an error; otherwise the result is `Ok` with the runs of the bytes delivered before the first empty buffer or the first failed read |
| Extractor.ReadErrorTruncatesOutput | mala_strings.rs:69 | A read error in the middle of the file ends the loop like end of file: the reader gives "abcdefgh", then an error, then "ijkl"; the output is the run "abcdefgh" instead of the file's run "abcdefghijkl" |
| Extractor.ExtractStringsChecked | mala_strings.rs:60-100 | Corrected: a failed read is reported as an error (iff the reader stops on a failure); otherwise the result is exactly the runs of the file |
| Scorer.EnhancedHumanReadable | mala_strings.rs:24-27 | The score is 0 for empty text and for text longer than 2600 bytes |
| Scorer.EmergentPrintable | mala_strings.rs:16-22 | `EMERGENT` has 95 entries, all printable ASCII |
| Scorer.EmergentCovers | mala_strings.rs:16-22 | Every printable ASCII character occurs in `EMERGENT`, at the position given by its 1-based rank |
| Scorer.EmergentDistinct | mala_strings.rs:16-22 | The 95 entries of `EMERGENT` are pairwise distinct |
| Scorer.EmergentRankIsPosition | tool_runner.py:28-38 | The hand-written `emergent_freq` table equals `{char: idx for idx, char in enumerate(emergent, 1)}`, and a character has a rank iff it is in the alphabet |
| Scorer.RankVectorValues | mala_strings.rs:38 | The rank vector holds 95 - i at index i, i.e. [95, 94, ..., 1] |
| Scorer.TallyCounts | mala_strings.rs:29-32 | The `HashMap` tally holds, for every character, its number of occurrences in the text |
| Scorer.TextVectorCounts | mala_strings.rs:34-37 | `text_vector` has 95 entries and entry i counts the occurrences of `EMERGENT[i]` |
| Scorer.TextVectorSum | mala_strings.rs:34-37 | The frequency vector never counts more than the text length, and on printable text its entries sum to exactly the length |
| Scorer.DistinctCountBounds | mala_strings.rs:41-42 | A non-empty text has between 1 and `len` distinct characters, and at most 95 if printable |
| Scorer.Utf8LengthOfAscii | mala_strings.rs:25 | `text.len()` (UTF-8 bytes) is at least the character count and equals it on ASCII text |
| Scorer.CosineSumsFitI32 | mala_strings.rs:48-51 | Under the 2600-byte cap, the dot product and the sum of squares of the frequency vector lie in 0..i32::MAX, and the rank vector's sum of squares is 290320 |
| Scorer.SumOfSquaresCountdown | mala_strings.rs:38 | Six times the sum of squares of n, n-1, ..., 1 is n(n+1)(2n+1) |
| StringsMain.KeepReadable | mala_strings.rs:113-120 | Scoring then filtering keeps at most one record per candidate, and every kept record scores at least 40 |
| StringsMain.KeepReadableMembers | mala_strings.rs:113-120 | A scored record is kept iff it scores some extracted candidate and its score is >= 40; a kept text is never empty nor over the cap |
| StringsMain.KeepReadableOrdered | mala_strings.rs:113-122 | Filtering keeps extraction order: kept positions strictly increase |
| StringsMain.KeepRunsReport | mala_strings.rs:111-122 | The printed records are exactly the qualifying 6-byte-or-longer maximal runs scoring >= 40, each at its true offset with its score, in file order, none missing |
| StringsMain.Run | mala_strings.rs:102-137 | `main` as written: no arguments at all panics at `args[0]`; any other wrong argument count gives the usage error; an unopenable file gives an error; otherwise the records printed are the readable report of the bytes delivered before the first empty buffer or failed read, so a mid-file read error still prints the runs before it |
| StringsMain.RunChecked | mala_strings.rs:69 | `main` over the corrected extractor: same argument and open handling; it fails with a read error exactly when the reader stops on a failure, and otherwise prints the readable report of the whole file |
| ToolRunner.ParseToolCmdline | tool_runner.py:177-186 | Splits on every ",": the first field is the tool and the rest are its arguments; a line without a comma is all tool (proved about it: ParseToolCmdlineJoin and ParseJoinedCmdline) |
| ToolRunner.ParseToolCmdlineJoin | tool_runner.py:177-190 | The tool and arguments joined with "," give back the command line; no field has a comma; there is one argument per comma; with no comma the tool is the whole line and the arguments are empty |
| ToolRunner.ParseJoinedCmdline | tool_runner.py:182-185 | Conversely, comma-free tool and arguments joined with "," parse back to the same tool and arguments |
| ToolRunner.RegisterCmdline | tool_runner.py:188-190 | `tool_configs` gains the command line as a key; an existing entry is never overwritten; a new key maps to the parse |
| ToolRunner.ParseAllToolCmdlines | tool_runner.py:154-160 | Registers each toolchain entry in order, and no key already in the table is lost |
| ToolRunner.ParseAllToolCmdlinesKeeps | tool_runner.py:154-160 | Registering a toolchain adds exactly its entries as keys, keeps every existing entry, and files each new entry under its own parse |
| ToolRunner.ToolConfigsOfToolchain | tool_runner.py:96-102 | A new runner's table has exactly the toolchain entries as keys, each mapped to its parse |
| ToolRunner.Strip | tool_runner.py:208 | `str.strip()` returns the text between the leading and trailing whitespace; the result neither starts nor ends with whitespace |
| ToolRunner.Truncate | tool_runner.py:49 | `int()` of a float truncates toward zero |
| ToolRunner.PyEnhancedHumanReadable | tool_runner.py:19-49 | Text over 2600 characters gives (False, 0); empty text raises a division by zero; other text with no alphabet character (an all-zero text vector, so the cosine is NaN) makes `int()` raise, and only those cases raise; a flagged score is >= the cutoff |
| ToolRunner.SimpleWeightIsFirstIndex | tool_runner.py:64-70 | The `simple` literal has 103 characters; a character's weight is `len(emergent)` minus its first index when it occurs, and 0 otherwise; the extra spaces do not change the space's first index |
| ToolRunner.SimpleHumanReadable | tool_runner.py:52-77 | Over-long text gives (False, 0); the flag is True iff the score exceeds `SHR_CUTOFF`, and otherwise the score is 0; a flagged score is floor(sum/len); floor(sum/len) > cutoff forces the flag |
| ToolRunner.SimpleHumanReadableBound | tool_runner.py:67-77 | A `simple_human_readable` score is at most the largest weight, 103 |
| ToolRunner.PadAddress | tool_runner.py:220 | A stored address has even length; it is the address with a single leading '0' added iff its length was odd |
| ToolRunner.ParseStringsLine | tool_runner.py:207-223 | One line of `parse_strings_data`: a kept record's score passed the cutoff and its address has even length (the full case split is ParseStringsLineMeaning) |
| ToolRunner.ParseStringsLineMeaning | tool_runner.py:207-223 | A stripped line without a space is skipped; otherwise the text after the first space is never empty, the scorer raises on it exactly when it is within the cap and has no alphabet character, and such a line is skipped by the `except`; the line is kept iff that text is scored without an exception and flagged; the record holds that text, its score and the padded part before the space |
| ToolRunner.ParseStringsData | tool_runner.py:193-224 | The three returned lists have equal length, no more entries than lines, even-length addresses, and scores >= the cutoff |
| ToolRunner.ParseStringsDataAppend | tool_runner.py:205-221 | Parsing is line by line: the result for two blocks is the first block's lists followed by the second's, so input order is kept |
| ToolRunner.ParseStringsDataRecords | tool_runner.py:205-224 | The (string, score, address) triples returned are exactly the records of the kept lines |
| ToolRunner.StdoutAsCharactersKeepsNothing | tool_runner.py:205-209 | As written, the loop iterates over the characters of the decoded output string; a single character never contains a space once stripped, so nothing is kept |
| ToolRunner.StringsOutputIsLost | tool_runner.py:168-174 | For output "1f0 kernel32.dll\n"-style lines, the as-written parse keeps nothing while the line-split parse keeps the string with its padded address |
| ToolRunner.ParseStringsOutputOfLines | tool_runner.py:193-224 | Corrected: output that is newline-separated lines is parsed line by line |
| ToolRunner.AddressLineKept | tool_runner.py:211-221 | A line "address text" with no surrounding whitespace and a text ending in a printable ASCII character (as `strings` prints it), scored 100, is kept as (text, 100, padded address) |
| SqlBuilder.Quote | mala_dao.py:19-21 | A string value is written between two single quotes and grows by one character per quote it contains; ReadQuoted shows the literal reads back as the value |
| SqlBuilder.DoubleQuotes | mala_dao.py:20 | Doubling lengthens the text by exactly its number of single quotes |
| SqlBuilder.UndoubleDoubled | mala_dao.py:19-21 | Reading quote pairs back as single quotes recovers the original value |
| SqlBuilder.ReadQuoted | mala_dao.py:19-21 | A quoted value reads back, as an SQL literal, as exactly the value; the literal closes at the quote the builder wrote, so a quote inside the value cannot end it early |
| SqlBuilder.GenerateInsertStatement | mala_dao.py:10-27 | The statement ends with ")" and that ")" is not preceded by "," |
| SqlBuilder.InsertStatementHeader | mala_dao.py:14-17 | The statement begins with "INSERT INTO <table>(", the column names joined by ",", then ") VALUES(" |
| SqlBuilder.InsertStatementValues | dao.py:5-19 | When the last value's rendering does not end in a comma, the statement is the header, then each value in column order (strings quoted with doubling, others via `str`, unquoted) separated by single commas, then ")" |
| SqlBuilder.RStripCommas | dao.py:17 | `rstrip(",")` keeps a prefix that does not end in a comma and removes only commas |
| MalaDao.InsertDataReturningId | mala_dao.py:106-110 | The statement is the generated insert followed by exactly "returning id;" |
| MalaDao.ReturningIdShape | mala_dao.py:108 | The statement opens with the insert header, and the generated ")" (not preceded by ",") comes right before the suffix |
| MalaDao.InsertStringInstances | mala_dao.py:177-215 | Nothing is called for an empty list. Otherwise call k sends `strings[256k:256k+256]` and `scores[256k:256k+256]`, each call non-empty, until `done >= num_strings`, so the calls cover the strings exactly once and in order. Then one instance call goes out with the full lists |
| MalaDao.InsertMalaStrings | mala_dao.py:158-174 | Empty output does nothing; otherwise one record per "\n", decoded from the pieces before the last in order; call k of `insert_strings` sends records 256k to 256k+255, each text with its own record's score; the calls together carry exactly the records' texts and scores in order; the final call carries all texts and positions |
| MalaDao.DecodeLines | mala_dao.py:166-173 | One record per line, in order, with the texts, scores and positions lists in step with the records |
| MalaDao.UploadInstances | mala_dao.py:174 | Without records nothing is called. With records, call k is the slice of texts and scores starting at record 256k, each text paired with its own record's score, and the calls together carry all texts and scores. One instances call with all texts and positions follows |
| MalaDao.NewlineTerminatedRecords | mala_dao.py:163-168 | For newline-terminated record lines, splitting gives exactly those lines followed by one empty piece that is dropped |
| CutterDao.TranscriptQuery | dao.py:163-175 | Both lookups' query: a fixed prefix (CountPrefix or MatchPrefix), the doubled text quoted, " or tr_text like ", and the doubled text between '% and %'; its length is the prefix plus twice the doubled text plus 23 |
| CutterDao.TranscriptMatchesCountQuery | dao.py:163-168 | The count query starts with its fixed prefix |
| CutterDao.TranscriptMatchesQuery | dao.py:170-175 | The match query starts with its fixed prefix |
| CutterDao.TranscriptQueryShape | dao.py:164-165 | The query is the prefix, the quote-doubled text as an SQL literal, " or tr_text like ", and `%text%` as an SQL literal |
| CutterDao.TranscriptQueryLiterals | dao.py:171-172 | Read from its opening quote, the first literal yields exactly the search text and ends at the written quote; the pattern literal reads back as `%text%` |
| Core.FileLimit | core.py:116-117 | A positive limit below the file count keeps the first `limit` files; otherwise the list is unchanged; the result is always a prefix |
| Core.CollateStats | core.py:140-150 | Each counter is the sum of its tuple field over all results, and `file_ids` is every result's list concatenated in order |
| Core.CollateAppend | core.py:146-150 | Collating two groups of results adds their counters and concatenates their id lists |
| Core.FlattenMembers | core.py:150 | An id is among the collated ids iff some result reported it |
| Core.FileSizes | core.py:162-167 | `total_volume` sums every occurrence's size, and the dictionary keys are each path once, in first-seen order |
| Core.Dedup | core.py:164-167 | The dictionary's keys are distinct and are exactly the input paths |
| Core.DedupVolume | core.py:166-167 | Counting each path once can only lower the total |
| Core.SortSorted | core.py:168 | The sort by size puts files in non-increasing size order |
| Core.SortBySizeDescending | core.py:168 | The sort is a permutation of the keys |
| Core.SortedVolume | core.py:168 | Sorting does not change the total size |
| Core.FirstMinIndex | core.py:174 | `bin_sizes.index(min(bin_sizes))` is a bin of minimal load, and every earlier bin has a strictly larger load |
| Core.Allocate | core.py:169-177 | With files in non-increasing size, each placed in a least-loaded bin (the first one, per FirstMinIndex): the bins hold exactly the files, loads sum to the total, each bin is non-increasing, and loads differ by at most the largest file |
| Core.BalanceTargetFileChunks | core.py:156-177 | Exactly `THREAD_LIMIT` bins; each distinct path in exactly one bin, once; each bin non-increasing in size; loads sum to the distinct paths' volume (`total_volume` when no path repeats); max load minus min load at most the largest file |

## Left out

- Reading the file, `File::open`, and the 2048-byte buffer: the file is the parameter `open`, a sequence of reader answers. `BufReader` buffering is not modelled beyond that.
- Floating-point scoring: `cosine_similarity`'s square roots and division, Rust's `1.0 - similarity` (a cosine distance; tool_runner.py:16 computes `1 - cosine(...)`, which is the similarity itself), the diversity ratio, the weights 100 and 50, and the `as i32` / `int()` conversion, including NaN for an all-zero frequency vector. These are the parameter `combine`, a function of the integer features.
- JSON: `serde_json` output in `main`, and `json.loads` in `insert_mala_strings` (the parameter `decode`), `parse_exiftool_data_json` and `insert_tool_data`.
- Databases: all psycopg2 and sqlite3 calls, the retry and sleep on a failed batch, schema creation, `verify_all_tools`, and the `insert_tool_data` dispatch. The batching loop is modelled with every call succeeding.
- Processes, hashing, archives and the filesystem: `execute_tool` (subprocess), `get_file_hashes`, py7zr extraction, `os.path.getsize` (the parameter `sizeOf`), and `os.walk`.
- Concurrency: the `ProcessPoolExecutor` workers in `run`, `unzip_files` and `worker_function`.
- Glue and configuration: argparser.py, main.py and constants.py. Their values (40, 2600, 6, 256, `THREAD_LIMIT` as `numBins`) are constants or parameters.
- `single_tool` in `ToolRunner.__init__`: not modelled, because tool_runner.py:99-101 sets `self.toolchain = [single_tool,]` and then always overwrites it with `toolchain`, so the argument has no effect.
- `get_emergent`, which calls `.add` on a dict and always raises, and the `argstring` name in the error paths of `execute_one_tool` and `execute_all_tools`, which is undefined.
- Extractor.Scan: requires `minLength >= 1`. With 0 the source would emit an empty string at every non-printable byte. Its only caller passes 6.
- Extractor.ExtractStrings: requires `minLength >= 1`, for the same reason.
- Extractor.ExtractStringsChecked: requires `minLength >= 1`, for the same reason.
- Extractor.ScanChunk: requires `minLength >= 1`, for the same reason.
- Scorer.EnhancedHumanReadable: states only the guard. The non-degenerate score is whatever `combine` returns.
- ToolRunner.PyEnhancedHumanReadable: the score is whatever `combine` returns once the guards and the NaN case are ruled out. The Python `combine` adds 100 times the cosine similarity (tool_runner.py:16), where Rust adds 100 times `1.0 - similarity`, so the two scores differ. The Python flag is the strict `combined_score > 40` (tool_runner.py:49), while Rust `main` keeps scores `>= 40`. Python counts characters here, while the Rust scorer counts UTF-8 bytes.
- SqlBuilder.InsertStatementValues: requires the last value's `str` rendering not to end in a comma. When the last rendering ends in commas, `rstrip(",")` removes them, and the contract says nothing about that case. `LastValueKept` also excludes an empty last rendering, because the strip would then remove the comma that precedes it.
- Core.BalanceTargetFileChunks: states the max-minus-min bound from the docstring's intent, not optimality of the split.

## Findings

| source | as written | input that shows it | evidently intended | confidence | as-written member | corrected member |
|---|---|---|---|---|---|---|
| mala_strings.rs:69 | `while let Ok(bytes_read)` ends the loop on a read error as if the file had ended, then flushes and returns `Ok` | reader answers "abcdefgh", an error, "ijkl", end of file: output "abcdefgh" at 0, no error | a read error surfaces as an I/O error and no truncated run is reported as complete; `main` over the corrected extractor is StringsMain.RunChecked | medium, not executed | Extractor.ReadErrorTruncatesOutput | Extractor.ExtractStringsChecked |
| tool_runner.py:174 | `execute_tool` returns the decoded output as one `str`, and `parse_strings_data` iterates over it, so each "line" is one character and nothing is ever kept | output "1f0 kernel32.dll\n": as written, no strings; split into lines, ("kernel32.dll", score, "01f0") | the output is split into lines before parsing | high, not executed | ToolRunner.StringsOutputIsLost | ToolRunner.ParseStringsOutputOfLines |

=== FILE: core.dfy ===
/** The orchestration arithmetic of the pipeline: the file-limit cut, the
    collation of per-worker counters, and the greedy largest-first split of
    the target files into one chunk per worker. File sizes are a parameter
    standing for `os.path.getsize`. */
module Core {
  import opened TextUtil

  // ---------------------------------------------------------------------
  // File-limit truncation in `run`.
  // ---------------------------------------------------------------------

  /** The target list after the file limit: a positive limit below the
      number of files keeps the first `limit` files; otherwise nothing is
      cut. */
  function FileLimit(files: seq<string>, limit: int): (r: seq<string>)
    ensures |r| <= |files| && r == files[..|r|]
    ensures limit > 0 ==> |r| == if |files| <= limit then |files| else limit
    ensures limit <= 0 ==> r == files
  {
    if |files| > limit && limit > 0 then files[..limit] else files
  }

  // ---------------------------------------------------------------------
  // `collate_stats`.
  // ---------------------------------------------------------------------

  /** What one worker returns: files seen, files newly handled, files
      verified, and the ids of the files it processed. */
  datatype WorkerResult = WorkerResult(count: int, handled: int, verified: int, fileIds: seq<int>)

  /** The three counters stored for the execution. */
  datatype Stats = Stats(fcountSanity: int, handledCount: int, verifiedCount: int)

  function Counts(results: seq<WorkerResult>): (r: seq<int>)
    ensures |r| == |results| && forall k :: 0 <= k < |results| ==> r[k] == results[k].count
  {
    seq(|results|, k requires 0 <= k < |results| => results[k].count)
  }

  function Handled(results: seq<WorkerResult>): (r: seq<int>)
    ensures |r| == |results| && forall k :: 0 <= k < |results| ==> r[k] == results[k].handled
  {
    seq(|results|, k requires 0 <= k < |results| => results[k].handled)
  }

  function Verified(results: seq<WorkerResult>): (r: seq<int>)
    ensures |r| == |results| && forall k :: 0 <= k < |results| ==> r[k] == results[k].verified
  {
    seq(|results|, k requires 0 <= k < |results| => results[k].verified)
  }

  function IdLists(results: seq<WorkerResult>): (r: seq<seq<int>>)
    ensures |r| == |results| && forall k :: 0 <= k < |results| ==> r[k] == results[k].fileIds
  {
    seq(|results|, k requires 0 <= k < |results| => results[k].fileIds)
  }

  /** `collate_stats` before it hands the figures to the file handler: each
      counter is the sum of that field over all workers, and the file ids are
      every worker's list concatenated in worker order. */
  method CollateStats(results: seq<WorkerResult>) returns (stats: Stats, fileIds: seq<int>)
    ensures stats == Stats(Sum(Counts(results)), Sum(Handled(results)), Sum(Verified(results)))
    ensures fileIds == Flatten(IdLists(results))
  {
    stats := Stats(0, 0, 0);
    fileIds := [];
    var i := 0;
    while i < |results|
      invariant 0 <= i <= |results|
      invariant stats == Stats(Sum(Counts(results[..i])), Sum(Handled(results[..i])), Sum(Verified(results[..i])))
      invariant fileIds == Flatten(IdLists(results[..i]))
    {
      var r := results[i];
      assert results[..i + 1] == results[..i] + [r];
      assert Counts(results[..i + 1]) == Counts(results[..i]) + [r.count];
      assert Handled(results[..i + 1]) == Handled(results[..i]) + [r.handled];
      assert Verified(results[..i + 1]) == Verified(results[..i]) + [r.verified];
      assert IdLists(results[..i + 1]) == IdLists(results[..i]) + [r.fileIds];
      SumAppend(Counts(results[..i]), [r.count]);
      SumAppend(Handled(results[..i]), [r.handled]);
      SumAppend(Verified(results[..i]), [r.verified]);
      FlattenAppend(IdLists(results[..i]), [r.fileIds]);
      assert Flatten([r.fileIds]) == r.fileIds;
      stats := Stats(stats.fcountSanity + r.count, stats.handledCount + r.handled,
                     stats.verifiedCount + r.verified);
      fileIds := fileIds + r.fileIds;
      i := i + 1;
    }
    assert results[..|results|] == results;
  }

  /** An id is among the collated ids exactly when some worker reported it. */
  lemma {:induction false} FlattenMembers<T>(ss: seq<seq<T>>, x: T)
    ensures x in Flatten(ss) <==> exists k :: 0 <= k < |ss| && x in ss[k]
  {
    if |ss| > 0 {
      FlattenMembers(ss[1..], x);
      if x in Flatten(ss[1..]) {
        var k :| 0 <= k < |ss[1..]| && x in ss[1..][k];
        assert x in ss[k + 1];
      }
      if exists k :: 0 <= k < |ss| && x in ss[k] {
        var k :| 0 <= k < |ss| && x in ss[k];
        if k > 0 {
          assert x in ss[1..][k - 1];
        }
      }
    }
  }

  /** Collating the results of two groups of workers adds their counters and
      concatenates their id lists. */
  lemma CollateAppend(a: seq<WorkerResult>, b: seq<WorkerResult>)
    ensures Sum(Counts(a + b)) == Sum(Counts(a)) + Sum(Counts(b))
    ensures Sum(Handled(a + b)) == Sum(Handled(a)) + Sum(Handled(b))
    ensures Sum(Verified(a + b)) == Sum(Verified(a)) + Sum(Verified(b))
    ensures Flatten(IdLists(a + b)) == Flatten(IdLists(a)) + Flatten(IdLists(b))
  {
    assert Counts(a + b) == Counts(a) + Counts(b);
    assert Handled(a + b) == Handled(a) + Handled(b);
    assert Verified(a + b) == Verified(a) + Verified(b);
    assert IdLists(a + b) == IdLists(a) + IdLists(b);
    SumAppend(Counts(a), Counts(b));
    SumAppend(Handled(a), Handled(b));
    SumAppend(Verified(a), Verified(b));
    FlattenAppend(IdLists(a), IdLists(b));
  }

  // ---------------------------------------------------------------------
  // `balance_target_file_chunks`: the size dictionary.
  // ---------------------------------------------------------------------

  /** The keys of `file_sizes` in insertion order: each path once, at its
      first occurrence. */
  function Dedup(files: seq<string>): (r: seq<string>)
    ensures Distinct(r)
    ensures forall f :: f in r <==> f in files
    ensures |r| <= |files|
  {
    if |files| == 0 then []
    else
      var d := Dedup(files[..|files| - 1]);
      var f := files[|files| - 1];
      assert forall g :: g in files <==> g in files[..|files| - 1] || g == f;
      if f in d then d else d + [f]
  }

  lemma {:induction false} DedupDistinct(files: seq<string>)
    requires Distinct(files)
    ensures Dedup(files) == files
  {
    if |files| > 0 {
      var init := files[..|files| - 1];
      DedupDistinct(init);
      assert files[|files| - 1] !in init;
      assert files == init + [files[|files| - 1]];
    }
  }

  /** Sum of the sizes of `files`. */
  function Volume(files: seq<string>, sizeOf: string -> nat): nat
  {
    if |files| == 0 then 0 else Volume(files[..|files| - 1], sizeOf) + sizeOf(files[|files| - 1])
  }

  lemma {:induction false} VolumeAppend(a: seq<string>, b: seq<string>, sizeOf: string -> nat)
    ensures Volume(a + b, sizeOf) == Volume(a, sizeOf) + Volume(b, sizeOf)
  {
    if |b| == 0 {
      assert a + b == a;
    } else {
      assert (a + b)[..|a + b| - 1] == a + b[..|b| - 1];
      VolumeAppend(a, b[..|b| - 1], sizeOf);
    }
  }

  /** Counting a path once instead of at each occurrence can only lower the
      total. */
  lemma {:induction false} DedupVolume(files: seq<string>, sizeOf: string -> nat)
    ensures Volume(Dedup(files), sizeOf) <= Volume(files, sizeOf)
  {
    if |files| > 0 {
      var init := files[..|files| - 1];
      DedupVolume(init, sizeOf);
      var d := Dedup(init);
      var f := files[|files| - 1];
      if f !in d {
        VolumeAppend(d, [f], sizeOf);
        assert Volume([f], sizeOf) == sizeOf(f) by {
          assert [f][..0] == [];
        }
      }
    }
  }

  /** The largest size among `files`, 0 for none. */
  function Largest(files: seq<string>, sizeOf: string -> nat): (m: nat)
    ensures forall f :: f in files ==> sizeOf(f) <= m
    ensures |files| > 0 ==> exists f :: f in files && sizeOf(f) == m
  {
    if |files| == 0 then 0
    else
      var m := Largest(files[..|files| - 1], sizeOf);
      var f := files[|files| - 1];
      assert forall g :: g in files ==> g in files[..|files| - 1] || g == f;
      if sizeOf(f) >= m then sizeOf(f) else m
  }

  // ---------------------------------------------------------------------
  // The descending sort.
  // ---------------------------------------------------------------------

  predicate NonIncreasing(s: seq<string>, sizeOf: string -> nat)
  {
    forall i, j :: 0 <= i < j < |s| ==> sizeOf(s[i]) >= sizeOf(s[j])
  }

  /** Insert `f` after every entry at least as large, so that among equal
      sizes the earlier entry stays first. */
  function Insert(f: string, s: seq<string>, sizeOf: string -> nat): (r: seq<string>)
    ensures multiset(r) == multiset(s) + multiset{f}
  {
    if |s| == 0 then [f]
    else if sizeOf(s[0]) >= sizeOf(f) then
      assert s == [s[0]] + s[1..];
      [s[0]] + Insert(f, s[1..], sizeOf)
    else [f] + s
  }

  /** The head of a non-increasing sequence is at least as large as
      anything in the insertion of a no-larger file into its tail. */
  lemma HeadDominates(f: string, s: seq<string>, sizeOf: string -> nat)
    requires NonIncreasing(s, sizeOf) && |s| > 0 && sizeOf(s[0]) >= sizeOf(f)
    ensures forall x :: x in Insert(f, s[1..], sizeOf) ==> sizeOf(s[0]) >= sizeOf(x)
  {
    forall x | x in Insert(f, s[1..], sizeOf)
      ensures sizeOf(s[0]) >= sizeOf(x)
    {
      assert x in multiset(Insert(f, s[1..], sizeOf));
      if x != f {
        assert x in multiset(s[1..]);
        var k :| 0 <= k < |s[1..]| && s[1..][k] == x;
        assert s[k + 1] == x;
      }
    }
  }

  lemma {:induction false} InsertSorted(f: string, s: seq<string>, sizeOf: string -> nat)
    requires NonIncreasing(s, sizeOf)
    ensures NonIncreasing(Insert(f, s, sizeOf), sizeOf)
  {
    if |s| > 0 && sizeOf(s[0]) >= sizeOf(f) {
      var rest := Insert(f, s[1..], sizeOf);
      InsertSorted(f, s[1..], sizeOf);
      HeadDominates(f, s, sizeOf);
      var r := [s[0]] + rest;
      forall i, j | 0 <= i < j < |r|
        ensures sizeOf(r[i]) >= sizeOf(r[j])
      {
        assert r[j] == rest[j - 1];
        if i > 0 {
          assert r[i] == rest[i - 1];
        }
      }
    }
  }

  /** `sorted(file_sizes.items(), key=size, reverse=True)`, as an insertion
      sort that places each entry after its equals. Only the order by size and
      the permutation are stated; the order among equal sizes is not. */
  function SortBySizeDescending(files: seq<string>, sizeOf: string -> nat): (r: seq<string>)
    ensures multiset(r) == multiset(files)
  {
    if |files| == 0 then []
    else
      var init := files[..|files| - 1];
      assert files == init + [files[|files| - 1]];
      Insert(files[|files| - 1], SortBySizeDescending(init, sizeOf), sizeOf)
  }

  lemma {:induction false} SortSorted(files: seq<string>, sizeOf: string -> nat)
    ensures NonIncreasing(SortBySizeDescending(files, sizeOf), sizeOf)
  {
    if |files| > 0 {
      SortSorted(files[..|files| - 1], sizeOf);
      InsertSorted(files[|files| - 1], SortBySizeDescending(files[..|files| - 1], sizeOf), sizeOf);
    }
  }

  // ---------------------------------------------------------------------
  // Greedy allocation.
  // ---------------------------------------------------------------------

  /** `bin_sizes.index(min(bin_sizes))`: the first bin of least load. */
  function FirstMinIndex(loads: seq<int>): (i: nat)
    requires |loads| > 0
    ensures i < |loads|
    ensures forall b :: 0 <= b < |loads| ==> loads[i] <= loads[b]
    ensures forall b :: 0 <= b < i ==> loads[b] > loads[i]
  {
    if |loads| == 1 then 0
    else
      var j := FirstMinIndex(loads[1..]);
      assert forall b :: 1 <= b < |loads| ==> loads[b] == loads[1..][b - 1];
      if loads[0] <= loads[j + 1] then 0 else j + 1
  }

  /** Total size of each bin. */
  function Loads(bins: seq<seq<string>>, sizeOf: string -> nat): (r: seq<int>)
    ensures |r| == |bins| && forall b :: 0 <= b < |bins| ==> r[b] == Volume(bins[b], sizeOf)
  {
    seq(|bins|, b requires 0 <= b < |bins| => Volume(bins[b], sizeOf) as int)
  }

  lemma {:induction false} SumUpdate(s: seq<int>, i: nat, d: int)
    requires i < |s|
    ensures Sum(s[i := s[i] + d]) == Sum(s) + d
  {
    if i > 0 {
      SumUpdate(s[1..], i - 1, d);
      assert s[i := s[i] + d][1..] == s[1..][i - 1 := s[i] + d];
    }
  }

  lemma {:induction false} FlattenUpdate(bins: seq<seq<string>>, i: nat, f: string)
    requires i < |bins|
    ensures multiset(Flatten(bins[i := bins[i] + [f]])) == multiset(Flatten(bins)) + multiset{f}
  {
    if i == 0 {
      assert bins[0 := bins[0] + [f]][1..] == bins[1..];
    } else {
      FlattenUpdate(bins[1..], i - 1, f);
      assert bins[i := bins[i] + [f]][1..] == bins[1..][i - 1 := bins[i] + [f]];
    }
  }

  /** Every bin is an empty list and has load 0. */
  function EmptyBins(n: nat): (bins: seq<seq<string>>)
    ensures |bins| == n && forall b :: 0 <= b < n ==> bins[b] == []
  {
    seq(n, b => [])
  }

  lemma {:induction false} EmptyBinsFlatten(n: nat)
    ensures Flatten(EmptyBins(n)) == []
  {
    if n > 0 {
      assert EmptyBins(n)[1..] == EmptyBins(n - 1);
      EmptyBinsFlatten(n - 1);
    }
  }

  /** `[0] * num_bins`. */
  function ZeroLoads(n: nat): (loads: seq<int>)
    ensures |loads| == n && forall b :: 0 <= b < n ==> loads[b] == 0
  {
    seq(n, b => 0)
  }

  lemma {:induction false} ZeroSum(n: nat)
    ensures Sum(ZeroLoads(n)) == 0
  {
    if n > 0 {
      assert ZeroLoads(n)[1..] == ZeroLoads(n - 1);
      ZeroSum(n - 1);
    }
  }

  lemma DistinctMultiset(s: seq<string>, f: string)
    requires Distinct(s)
    ensures multiset(s)[f] == if f in s then 1 else 0
  {
    if f in s {
      var i :| 0 <= i < |s| && s[i] == f;
      assert s == s[..i] + [f] + s[i + 1..];
      assert f !in s[..i] && f !in s[i + 1..] by {
        forall j | 0 <= j < |s| && j != i
          ensures s[j] != f
        {
        }
      }
    }
  }

  /** The first loop of `balance_target_file_chunks`: `total_volume` counts
      every occurrence, the dictionary keeps each path once in first-seen
      order. */
  method FileSizes(targetFiles: seq<string>, sizeOf: string -> nat)
    returns (keys: seq<string>, totalVolume: nat)
    ensures keys == Dedup(targetFiles)
    ensures totalVolume == Volume(targetFiles, sizeOf)
  {
    totalVolume := 0;
    keys := [];
    var i := 0;
    while i < |targetFiles|
      invariant 0 <= i <= |targetFiles|
      invariant keys == Dedup(targetFiles[..i])
      invariant totalVolume == Volume(targetFiles[..i], sizeOf)
    {
      var file := targetFiles[i];
      assert targetFiles[..i + 1][..i] == targetFiles[..i];
      totalVolume := totalVolume + sizeOf(file);
      if file !in keys {
        keys := keys + [file];
      }
      i := i + 1;
    }
    assert targetFiles[..|targetFiles|] == targetFiles;
  }

  /** Each bin is in non-increasing size order. */
  predicate BinsSorted(bins: seq<seq<string>>, sizeOf: string -> nat)
  {
    forall b :: 0 <= b < |bins| ==> NonIncreasing(bins[b], sizeOf)
  }

  /** Every placed file is at least `floor` large. */
  predicate AllAtLeast(bins: seq<seq<string>>, sizeOf: string -> nat, floor: int)
  {
    forall b, k :: 0 <= b < |bins| && 0 <= k < |bins[b]| ==> sizeOf(bins[b][k]) >= floor
  }

  /** No two loads differ by more than `bound`. */
  predicate Balanced(loads: seq<int>, bound: int)
  {
    forall a, b :: 0 <= a < |loads| && 0 <= b < |loads| ==> loads[a] - loads[b] <= bound
  }

  /** `loads[b]` is the total size of bin `b`. */
  predicate LoadsMatch(bins: seq<seq<string>>, loads: seq<int>, sizeOf: string -> nat)
  {
    |loads| == |bins| && forall b :: 0 <= b < |bins| ==> loads[b] == Volume(bins[b], sizeOf)
  }

  lemma LoadsOfMatch(bins: seq<seq<string>>, loads: seq<int>, sizeOf: string -> nat)
    requires LoadsMatch(bins, loads, sizeOf)
    ensures Loads(bins, sizeOf) == loads
  {
  }

  lemma PlaceLoads(bins: seq<seq<string>>, loads: seq<int>, sizeOf: string -> nat, file: string, m: nat)
    requires m < |bins| && LoadsMatch(bins, loads, sizeOf)
    ensures LoadsMatch(bins[m := bins[m] + [file]], loads[m := loads[m] + sizeOf(file)], sizeOf)
  {
    VolumeAppend(bins[m], [file], sizeOf);
    assert Volume([file], sizeOf) == sizeOf(file) by {
      assert [file][..0] == [];
    }
  }

  /** Appending a file no larger than any placed one keeps every bin sorted
      and every placed file at least that large. */
  lemma PlaceSorted(bins: seq<seq<string>>, sizeOf: string -> nat, file: string, m: nat)
    requires m < |bins|
    requires BinsSorted(bins, sizeOf) && AllAtLeast(bins, sizeOf, sizeOf(file))
    ensures BinsSorted(bins[m := bins[m] + [file]], sizeOf)
    ensures AllAtLeast(bins[m := bins[m] + [file]], sizeOf, sizeOf(file))
  {
    var newBin := bins[m] + [file];
    var bins' := bins[m := newBin];
    assert NonIncreasing(newBin, sizeOf) by {
      forall p, q | 0 <= p < q < |newBin|
        ensures sizeOf(newBin[p]) >= sizeOf(newBin[q])
      {
        assert newBin[p] == bins[m][p];
      }
    }
    forall b, k | 0 <= b < |bins'| && 0 <= k < |bins'[b]|
      ensures sizeOf(bins'[b][k]) >= sizeOf(file)
    {
      if b != m || k < |bins[m]| {
        assert bins'[b][k] == bins[b][k];
      }
    }
  }

  /** Adding at most `bound` to a least load keeps the loads within `bound`
      of each other. */
  lemma PlaceBalanced(loads: seq<int>, bound: int, m: nat, d: nat)
    requires Balanced(loads, bound) && d <= bound
    requires m < |loads| && forall b :: 0 <= b < |loads| ==> loads[m] <= loads[b]
    ensures Balanced(loads[m := loads[m] + d], bound)
  {
    var loads' := loads[m := loads[m] + d];
    forall a, b | 0 <= a < |loads'| && 0 <= b < |loads'|
      ensures loads'[a] - loads'[b] <= bound
    {
      assert loads[m] <= loads[b];
    }
  }

  /** The shape the greedy loop keeps: the loads match the bins, every bin
      is non-increasing, the loads are within `bound` of each other, and
      every placed file is at least `floor` large. */
  predicate Packed(bins: seq<seq<string>>, loads: seq<int>, sizeOf: string -> nat, bound: int, floor: int)
  {
    LoadsMatch(bins, loads, sizeOf) && BinsSorted(bins, sizeOf)
    && Balanced(loads, bound) && AllAtLeast(bins, sizeOf, floor)
  }

  /** The bins hold exactly the first `n` sorted files and the loads add up
      to their volume. */
  predicate Placed(sortedFiles: seq<string>, n: nat, bins: seq<seq<string>>, loads: seq<int>, sizeOf: string -> nat)
  {
    n <= |sortedFiles|
    && multiset(Flatten(bins)) == multiset(sortedFiles[..n])
    && Sum(loads) == Volume(sortedFiles[..n], sizeOf)
  }

  /** The size of the `n`th sorted file, or 0 once every file is placed. */
  function NextSize(sortedFiles: seq<string>, n: nat, sizeOf: string -> nat): nat
  {
    if n < |sortedFiles| then sizeOf(sortedFiles[n]) else 0
  }

  /** Placing a file no larger than `bound` or any placed file into a least
      loaded bin keeps the shape, with any floor up to that file's size. */
  lemma PackStep(bins: seq<seq<string>>, loads: seq<int>, sizeOf: string -> nat, bound: int,
                 file: string, m: nat, floor: int)
    requires Packed(bins, loads, sizeOf, bound, sizeOf(file))
    requires sizeOf(file) <= bound && floor <= sizeOf(file)
    requires m < |loads| && forall b :: 0 <= b < |loads| ==> loads[m] <= loads[b]
    ensures Packed(bins[m := bins[m] + [file]], loads[m := loads[m] + sizeOf(file)], sizeOf, bound, floor)
  {
    PlaceLoads(bins, loads, sizeOf, file, m);
    PlaceSorted(bins, sizeOf, file, m);
    PlaceBalanced(loads, bound, m, sizeOf(file));
    NextAtLeast(bins[m := bins[m] + [file]], sizeOf, sizeOf(file), floor);
  }

  /** One round of the greedy loop: the `n`th file goes to a least-loaded
      bin and its size is added to that bin's load. */
  lemma AllocStep(sortedFiles: seq<string>, sizeOf: string -> nat, bound: int, n: nat,
                  bins: seq<seq<string>>, binSizes: seq<int>, m: nat)
    requires n < |sortedFiles| && sizeOf(sortedFiles[n]) <= bound
    requires NextSize(sortedFiles, n + 1, sizeOf) <= sizeOf(sortedFiles[n])
    requires Packed(bins, binSizes, sizeOf, bound, NextSize(sortedFiles, n, sizeOf))
    requires Placed(sortedFiles, n, bins, binSizes, sizeOf)
    requires m < |binSizes| && forall b :: 0 <= b < |binSizes| ==> binSizes[m] <= binSizes[b]
    ensures Packed(bins[m := bins[m] + [sortedFiles[n]]], binSizes[m := binSizes[m] + sizeOf(sortedFiles[n])],
                   sizeOf, bound, NextSize(sortedFiles, n + 1, sizeOf))
    ensures Placed(sortedFiles, n + 1, bins[m := bins[m] + [sortedFiles[n]]],
                   binSizes[m := binSizes[m] + sizeOf(sortedFiles[n])], sizeOf)
  {
    PackStep(bins, binSizes, sizeOf, bound, sortedFiles[n], m, NextSize(sortedFiles, n + 1, sizeOf));
    PlaceCounted(sortedFiles, sizeOf, bins, binSizes, n, m);
  }

  /** The greedy loop: each file in turn, largest first, goes to the first
      least-loaded bin and its size is added to that bin's load. */
  method Allocate(sortedFiles: seq<string>, sizeOf: string -> nat, numBins: nat, bound: nat)
    returns (bins: seq<seq<string>>)
    requires numBins >= 1
    requires NonIncreasing(sortedFiles, sizeOf)
    requires forall k :: 0 <= k < |sortedFiles| ==> sizeOf(sortedFiles[k]) <= bound
    ensures |bins| == numBins
    ensures multiset(Flatten(bins)) == multiset(sortedFiles)
    ensures Sum(Loads(bins, sizeOf)) == Volume(sortedFiles, sizeOf)
    ensures BinsSorted(bins, sizeOf)
    ensures Balanced(Loads(bins, sizeOf), bound)
  {
    bins := EmptyBins(numBins);
    var binSizes := ZeroLoads(numBins);
    EmptyBinsFlatten(numBins);
    ZeroSum(numBins);
    assert sortedFiles[..0] == [];
    var n := 0;
    while n < |sortedFiles|
      invariant |bins| == numBins == |binSizes|
      invariant Packed(bins, binSizes, sizeOf, bound, NextSize(sortedFiles, n, sizeOf))
      invariant Placed(sortedFiles, n, bins, binSizes, sizeOf)
    {
      var m := FirstMinIndex(binSizes);
      AllocStep(sortedFiles, sizeOf, bound, n, bins, binSizes, m);
      bins := bins[m := bins[m] + [sortedFiles[n]]];
      binSizes := binSizes[m := binSizes[m] + sizeOf(sortedFiles[n])];
      n := n + 1;
    }
    assert sortedFiles[..|sortedFiles|] == sortedFiles;
    LoadsOfMatch(bins, binSizes, sizeOf);
  }

  /** Placing the `n`th file extends the placed files and the total load
      by that file. */
  lemma PlaceCounted(sortedFiles: seq<string>, sizeOf: string -> nat, bins: seq<seq<string>>,
                     binSizes: seq<int>, n: nat, m: nat)
    requires n < |sortedFiles| && m < |binSizes| && m < |bins|
    requires multiset(Flatten(bins)) == multiset(sortedFiles[..n])
    requires Sum(binSizes) == Volume(sortedFiles[..n], sizeOf)
    ensures multiset(Flatten(bins[m := bins[m] + [sortedFiles[n]]])) == multiset(sortedFiles[..n + 1])
    ensures Sum(binSizes[m := binSizes[m] + sizeOf(sortedFiles[n])]) == Volume(sortedFiles[..n + 1], sizeOf)
  {
    FlattenUpdate(bins, m, sortedFiles[n]);
    SumUpdate(binSizes, m, sizeOf(sortedFiles[n]));
    NextVolume(sortedFiles, n, sizeOf);
  }

  lemma NextAtLeast(bins: seq<seq<string>>, sizeOf: string -> nat, floor: int, lower: int)
    requires AllAtLeast(bins, sizeOf, floor) && lower <= floor
    ensures AllAtLeast(bins, sizeOf, lower)
  {
  }

  lemma NextVolume(s: seq<string>, n: nat, sizeOf: string -> nat)
    requires n < |s|
    ensures Volume(s[..n + 1], sizeOf) == Volume(s[..n], sizeOf) + sizeOf(s[n])
    ensures multiset(s[..n + 1]) == multiset(s[..n]) + multiset{s[n]}
  {
    assert s[..n + 1] == s[..n] + [s[n]];
    assert s[..n + 1][..n] == s[..n];
  }

  /** `balance_target_file_chunks` with `num_bins` standing for
      `THREAD_LIMIT`: exactly `numBins` chunks; every distinct path in
      exactly one chunk, once; each chunk in non-increasing size order; the
      chunk loads add up to the volume of the distinct paths, which is the
      loop's `total_volume` when no path repeats; and no two loads differ by
      more than the largest file. */
  method BalanceTargetFileChunks(targetFiles: seq<string>, sizeOf: string -> nat, numBins: nat)
    returns (bins: seq<seq<string>>)
    requires numBins >= 1
    ensures |bins| == numBins
    ensures forall f :: multiset(Flatten(bins))[f] == if f in targetFiles then 1 else 0
    ensures forall b :: 0 <= b < |bins| ==> NonIncreasing(bins[b], sizeOf)
    ensures Sum(Loads(bins, sizeOf)) == Volume(Dedup(targetFiles), sizeOf) <= Volume(targetFiles, sizeOf)
    ensures Distinct(targetFiles) ==> Sum(Loads(bins, sizeOf)) == Volume(targetFiles, sizeOf)
    ensures forall a, b :: 0 <= a < |bins| && 0 <= b < |bins| ==>
      Loads(bins, sizeOf)[a] - Loads(bins, sizeOf)[b] <= Largest(targetFiles, sizeOf)
  {
    var keys, totalVolume := FileSizes(targetFiles, sizeOf);
    DedupVolume(targetFiles, sizeOf);
    var sortedFiles := SortBySizeDescending(keys, sizeOf);
    SortSorted(keys, sizeOf);
    var largest := Largest(targetFiles, sizeOf);
    SortedBounded(targetFiles, sizeOf);
    bins := Allocate(sortedFiles, sizeOf, numBins, largest);
    PlacedOnce(targetFiles, Flatten(bins), sizeOf);
    SortedVolume(keys, sizeOf);
    if Distinct(targetFiles) {
      DedupDistinct(targetFiles);
    }
  }

  /** No sorted key is larger than the largest input file. */
  lemma SortedBounded(targetFiles: seq<string>, sizeOf: string -> nat)
    ensures forall k :: 0 <= k < |SortBySizeDescending(Dedup(targetFiles), sizeOf)| ==>
      sizeOf(SortBySizeDescending(Dedup(targetFiles), sizeOf)[k]) <= Largest(targetFiles, sizeOf)
  {
    var sorted := SortBySizeDescending(Dedup(targetFiles), sizeOf);
    forall k | 0 <= k < |sorted|
      ensures sizeOf(sorted[k]) <= Largest(targetFiles, sizeOf)
    {
      assert sorted[k] in multiset(Dedup(targetFiles));
    }
  }

  /** A permutation of the distinct paths holds every input path exactly
      once and nothing else. */
  lemma PlacedOnce(targetFiles: seq<string>, placed: seq<string>, sizeOf: string -> nat)
    requires multiset(placed) == multiset(SortBySizeDescending(Dedup(targetFiles), sizeOf))
    ensures forall f :: multiset(placed)[f] == if f in targetFiles then 1 else 0
  {
    forall f
      ensures multiset(placed)[f] == if f in targetFiles then 1 else 0
    {
      DistinctMultiset(Dedup(targetFiles), f);
    }
  }

  /** Inserting a file adds its size to the total. */
  lemma {:induction false} InsertVolume(f: string, s: seq<string>, sizeOf: string -> nat)
    ensures Volume(Insert(f, s, sizeOf), sizeOf) == Volume(s, sizeOf) + sizeOf(f)
  {
    VolumeOne(f, sizeOf);
    if |s| == 0 {
    } else if sizeOf(s[0]) >= sizeOf(f) {
      InsertVolume(f, s[1..], sizeOf);
      VolumeAppend([s[0]], Insert(f, s[1..], sizeOf), sizeOf);
      VolumeAppend([s[0]], s[1..], sizeOf);
      assert s == [s[0]] + s[1..];
    } else {
      VolumeAppend([f], s, sizeOf);
    }
  }

  lemma VolumeOne(f: string, sizeOf: string -> nat)
    ensures Volume([f], sizeOf) == sizeOf(f)
  {
    assert [f][..0] == [];
  }

  /** Sorting does not change the total size. */
  lemma {:induction false} SortedVolume(files: seq<string>, sizeOf: string -> nat)
    ensures Volume(SortBySizeDescending(files, sizeOf), sizeOf) == Volume(files, sizeOf)
  {
    if |files| > 0 {
      var init := files[..|files| - 1];
      var f := files[|files| - 1];
      assert SortBySizeDescending(files, sizeOf) == Insert(f, SortBySizeDescending(init, sizeOf), sizeOf);
      SortedVolume(init, sizeOf);
      InsertVolume(f, SortBySizeDescending(init, sizeOf), sizeOf);
      assert Volume(files, sizeOf) == Volume(init, sizeOf) + sizeOf(f) by {
        assert files == init + [f];
        VolumeAppend(init, [f], sizeOf);
        VolumeOne(f, sizeOf);
      }
    }
  }
}

=== FILE: cutter_dao.dfy ===
/** The transcript lookups of the SQLite data-access object: the search text
    has its single quotes doubled before it is placed, twice, inside string
    literals of the query. */
module CutterDao {
  import opened Results
  import SqlBuilder

  /** Text before the first literal of `fetch_exact_transcript_matches_count`. */
  const CountPrefix: string := "select count(*) from transcript where tr_text="

  /** Text before the first literal of `fetch_exact_transcript_matches`. */
  const MatchPrefix: string :=
    "select distinct i.ident_text, tr.tr_id from transcript tr join identifier i on i.tr_id=tr.tr_id where tr.tr_text="

  /** Text between the exact-match literal and the `like` pattern. */
  const LikeInfix: string := " or tr_text like "

  /** The query shape both lookups share, with the doubled text written into
      the f-string by hand. */
  function TranscriptQuery(prefix: string, trText: string): (q: string)
    ensures |q| == |prefix| + 2 * |SqlBuilder.DoubleQuotes(trText)| + |LikeInfix| + 6
  {
    var doubled := SqlBuilder.DoubleQuotes(trText);
    prefix + "'" + doubled + "'" + LikeInfix + "'%" + doubled + "%'"
  }

  /** `fetch_exact_transcript_matches_count`. */
  function TranscriptMatchesCountQuery(trText: string): (q: string)
    ensures |CountPrefix| < |q| && q[..|CountPrefix|] == CountPrefix
  {
    TranscriptQuery(CountPrefix, trText)
  }

  /** `fetch_exact_transcript_matches`. */
  function TranscriptMatchesQuery(trText: string): (q: string)
    ensures |MatchPrefix| < |q| && q[..|MatchPrefix|] == MatchPrefix
  {
    TranscriptQuery(MatchPrefix, trText)
  }

  /** A percent sign is not a quote, so doubling passes the pattern's
      wildcards through. */
  lemma PatternDoubled(trText: string)
    ensures SqlBuilder.DoubleQuotes("%" + trText + "%") == "%" + SqlBuilder.DoubleQuotes(trText) + "%"
  {
    SqlBuilder.DoubleQuotesAppend("%", trText);
    SqlBuilder.DoubleQuotesAppend("%" + trText, "%");
    assert SqlBuilder.DoubleQuotes("%") == "%";
  }

  /** The query is the prefix, the search text as an SQL literal, and the
      pattern `%text%` as an SQL literal. */
  lemma TranscriptQueryShape(prefix: string, trText: string)
    ensures TranscriptQuery(prefix, trText)
      == prefix + SqlBuilder.Quote(trText) + LikeInfix + SqlBuilder.Quote("%" + trText + "%")
  {
    PatternDoubled(trText);
  }

  /** A literal placed after any prefix reads back from its opening quote
      as its value, ending where the text after it begins. */
  lemma LiteralAfterPrefix(prefix: string, value: string, after: string)
    requires after == "" || after[0] != '\''
    ensures var q := prefix + SqlBuilder.Quote(value) + after;
      |prefix| < |q| && q[|prefix|] == '\''
      && SqlBuilder.ReadLiteral(q[|prefix| + 1..]) == Some((value, after))
  {
    var q := prefix + SqlBuilder.Quote(value) + after;
    SqlBuilder.ReadQuoted(value, after);
    assert q == prefix + (SqlBuilder.Quote(value) + after);
    assert q[|prefix| + 1..] == SqlBuilder.Quote(value)[1..] + after;
  }

  /** Reading the first literal from its opening quote yields exactly the
      search text and stops at the quote the query wrote, leaving the `like`
      clause; the pattern literal reads back as `%text%`. A quote inside the
      text can therefore not end a literal early. */
  lemma TranscriptQueryLiterals(prefix: string, trText: string)
    ensures var q := TranscriptQuery(prefix, trText);
      |prefix| < |q| && q[|prefix|] == '\''
      && SqlBuilder.ReadLiteral(q[|prefix| + 1..])
         == Some((trText, LikeInfix + SqlBuilder.Quote("%" + trText + "%")))
      && SqlBuilder.ReadLiteral(SqlBuilder.Quote("%" + trText + "%")[1..]) == Some(("%" + trText + "%", ""))
  {
    var pattern := "%" + trText + "%";
    var likeClause := LikeInfix + SqlBuilder.Quote(pattern);
    TranscriptQueryShape(prefix, trText);
    assert TranscriptQuery(prefix, trText) == prefix + SqlBuilder.Quote(trText) + likeClause;
    assert likeClause[0] == ' ';
    LiteralAfterPrefix(prefix, trText, likeClause);
    SqlBuilder.ReadQuoted(pattern, "");
    assert SqlBuilder.Quote(pattern)[1..] + "" == SqlBuilder.Quote(pattern)[1..];
  }
}

=== FILE: extractor.dfy ===
/** The printable-run extractor of mala_strings.rs (`is_printable`,
    `extract_strings`): one forward pass over the bytes of a file, read in
    buffer-sized pieces, reporting every maximal run of printable ASCII bytes
    that is at least `minLength` long together with the absolute offset of its
    first byte.

    The file is modelled by the answers its reader gives to successive `read`
    calls: a filled buffer, an empty buffer (end of file), or a read error. */
module Extractor {
  import opened TextUtil
  import opened Results

  type byte = b: int | 0 <= b < 256

  /** `is_printable`: ASCII space through tilde. */
  predicate IsPrintable(b: int)
  {
    b >= 32 && b <= 126
  }

  predicate AllPrintable(run: seq<byte>)
  {
    forall k :: 0 <= k < |run| ==> IsPrintable(run[k])
  }

  /** One answer of `reader.read(&mut buffer)`: the bytes placed in the buffer
      (none at end of file), or an error. */
  datatype ReadResult = Filled(bytes: seq<byte>) | ReadFailed

  datatype IoError = OpenFailed | ReadError

  /** The target file: it either cannot be opened, or it answers a sequence of
      answers (running out of answers behaves as end of file). */
  datatype FileInput = Unopenable | Opened(answers: seq<ReadResult>)

  /** One extracted string with the offset of its first byte in the file. */
  datatype Candidate = Candidate(offset: nat, text: string)

  /** The bytes the read loop consumes: every filled buffer up to the first
      empty buffer, the first error or the last answer. */
  function Delivered(answers: seq<ReadResult>): seq<byte>
  {
    if |answers| == 0 then []
    else match answers[0]
      case ReadFailed => []
      case Filled(chunk) => if |chunk| == 0 then [] else chunk + Delivered(answers[1..])
  }

  /** The read loop stops because a read failed, not because the file ended. */
  predicate StopsOnFailure(answers: seq<ReadResult>)
  {
    if |answers| == 0 then false
    else match answers[0]
      case ReadFailed => true
      case Filled(chunk) => |chunk| > 0 && StopsOnFailure(answers[1..])
  }

  /** `String::from_utf8_lossy`, which leaves printable ASCII unchanged. */
  function Decode(run: seq<byte>): (text: string)
    requires AllPrintable(run)
    ensures |text| == |run|
    ensures forall k :: 0 <= k < |run| ==> text[k] as int == run[k]
  {
    seq(|run|, k requires 0 <= k < |run| => run[k] as char)
  }

  // ---------------------------------------------------------------------
  // Reference definition: the maximal printable runs of a byte string.
  // ---------------------------------------------------------------------

  /** First index at or after `i` that is the end of the data or holds a
      non-printable byte. */
  function RunEnd(d: seq<byte>, i: nat): (j: nat)
    requires i <= |d|
    ensures i <= j <= |d|
    ensures forall k :: i <= k < j ==> IsPrintable(d[k])
    ensures j == |d| || !IsPrintable(d[j])
    decreases |d| - i
  {
    if i == |d| || !IsPrintable(d[i]) then i else RunEnd(d, i + 1)
  }

  /** The run starting at `offset` as a candidate, if it is long enough. */
  function Emit(offset: nat, run: seq<byte>, minLength: nat): seq<Candidate>
    requires AllPrintable(run)
  {
    if |run| >= minLength then [Candidate(offset, Decode(run))] else []
  }

  /** The qualifying maximal runs that start at or after `i`. */
  function RunsFrom(d: seq<byte>, i: nat, minLength: nat): seq<Candidate>
    requires i <= |d|
    decreases |d| - i
  {
    if i == |d| then []
    else if !IsPrintable(d[i]) then RunsFrom(d, i + 1, minLength)
    else
      var j := RunEnd(d, i);
      Emit(i, d[i..j], minLength) + RunsFrom(d, j, minLength)
  }

  /** Every maximal printable run of `d` that is at least `minLength` long,
      in file order. */
  function Runs(d: seq<byte>, minLength: nat): seq<Candidate>
  {
    RunsFrom(d, 0, minLength)
  }

  /** `d[s..e]` is a printable run bounded on both sides by a non-printable
      byte or an end of the data. */
  predicate MaximalRun(d: seq<byte>, s: int, e: int)
  {
    0 <= s < e <= |d|
    && (forall k :: s <= k < e ==> IsPrintable(d[k]))
    && (s == 0 || !IsPrintable(d[s - 1]))
    && (e == |d| || !IsPrintable(d[e]))
  }

  /** `c` is a qualifying maximal run of `d`, reported at its true offset. */
  predicate Reports(d: seq<byte>, c: Candidate, minLength: nat)
  {
    MaximalRun(d, c.offset, c.offset + |c.text|)
    && |c.text| >= minLength
    && c.text == Decode(d[c.offset..c.offset + |c.text|])
  }

  /** Position `i` does not lie strictly inside a printable run. */
  predicate AtBoundary(d: seq<byte>, i: nat)
  {
    i == 0 || i >= |d| || !IsPrintable(d[i - 1]) || !IsPrintable(d[i])
  }

  lemma {:induction false} RunEndAt(d: seq<byte>, s: nat, p: nat)
    requires s <= p <= |d|
    requires forall k :: s <= k < p ==> IsPrintable(d[k])
    requires p == |d| || !IsPrintable(d[p])
    ensures RunEnd(d, s) == p
    decreases p - s
  {
    if s < p {
      RunEndAt(d, s + 1, p);
    }
  }

  /** A printable stretch that ends at a non-printable byte or at the end of
      the data contributes exactly one candidate (if long enough). */
  lemma RunsFromRun(d: seq<byte>, s: nat, p: nat, minLength: nat)
    requires s < p <= |d|
    requires forall k :: s <= k < p ==> IsPrintable(d[k])
    requires p == |d| || !IsPrintable(d[p])
    ensures AllPrintable(d[s..p])
    ensures RunsFrom(d, s, minLength) == Emit(s, d[s..p], minLength) + RunsFrom(d, p, minLength)
  {
    RunEndAt(d, s, p);
  }

  /** Soundness: everything reported from a boundary on is a qualifying
      maximal run at its true offset. */
  lemma {:induction false} RunsFromSound(d: seq<byte>, i: nat, minLength: nat)
    requires i <= |d|
    requires AtBoundary(d, i)
    ensures forall c :: c in RunsFrom(d, i, minLength) ==> i <= c.offset && Reports(d, c, minLength)
    decreases |d| - i
  {
    if i < |d| {
      if !IsPrintable(d[i]) {
        RunsFromSound(d, i + 1, minLength);
      } else {
        var j := RunEnd(d, i);
        RunsFromSound(d, j, minLength);
        forall c | c in Emit(i, d[i..j], minLength)
          ensures Reports(d, c, minLength)
        {
          assert c == Candidate(i, Decode(d[i..j]));
          assert c.offset + |c.text| == j;
        }
      }
    }
  }

  /** Every candidate the extractor's reference reports is a qualifying
      maximal printable run, found at its true offset. */
  lemma RunsSound(d: seq<byte>, minLength: nat)
    ensures forall c :: c in Runs(d, minLength) ==> Reports(d, c, minLength)
  {
    RunsFromSound(d, 0, minLength);
  }

  /** Candidates in file order that never touch: each ends before the next
      one starts. */
  predicate InFileOrder(rs: seq<Candidate>)
  {
    forall a, b :: 0 <= a < b < |rs| ==> rs[a].offset + |rs[a].text| < rs[b].offset
  }

  lemma {:induction false} RunsFromOrdered(d: seq<byte>, i: nat, minLength: nat)
    requires i <= |d|
    requires AtBoundary(d, i)
    ensures InFileOrder(RunsFrom(d, i, minLength))
    decreases |d| - i
  {
    if i < |d| {
      if !IsPrintable(d[i]) {
        RunsFromOrdered(d, i + 1, minLength);
        assert RunsFrom(d, i, minLength) == RunsFrom(d, i + 1, minLength);
      } else {
        var j := RunEnd(d, i);
        var head := Emit(i, d[i..j], minLength);
        var rest := RunsFrom(d, j, minLength);
        RunsFromOrdered(d, j, minLength);
        RunsFromSound(d, j, minLength);
        var rs := head + rest;
        assert RunsFrom(d, i, minLength) == rs;
        forall a, b | 0 <= a < b < |rs|
          ensures rs[a].offset + |rs[a].text| < rs[b].offset
        {
          if a < |head| {
            assert rs[a] == Candidate(i, Decode(d[i..j]));
            var c := rest[b - |head|];
            assert rs[b] == c;
            assert c in rest;
            assert j <= c.offset && IsPrintable(d[c.offset]);
          } else {
            assert rs[a] == rest[a - |head|] && rs[b] == rest[b - |head|];
          }
        }
      }
    }
  }

  /** The reference runs are in file order and do not overlap, so no run is
      reported twice. */
  lemma RunsOrdered(d: seq<byte>, minLength: nat)
    ensures InFileOrder(Runs(d, minLength))
  {
    RunsFromOrdered(d, 0, minLength);
  }

  /** Completeness: every qualifying maximal run starting at or after a
      boundary is reported, at its true offset. */
  lemma {:induction false} RunsFromComplete(d: seq<byte>, i: nat, minLength: nat, s: nat, e: nat)
    requires i <= s
    requires AtBoundary(d, i)
    requires MaximalRun(d, s, e) && e - s >= minLength
    ensures AllPrintable(d[s..e])
    ensures Candidate(s, Decode(d[s..e])) in RunsFrom(d, i, minLength)
    decreases |d| - i
  {
    assert AllPrintable(d[s..e]);
    if !IsPrintable(d[i]) {
      RunsFromComplete(d, i + 1, minLength, s, e);
    } else {
      var j := RunEnd(d, i);
      if s == i {
        RunEndAt(d, s, e);
      } else {
        assert !IsPrintable(d[s - 1]);
        assert j <= s - 1;
        RunsFromComplete(d, j, minLength, s, e);
      }
    }
  }

  /** Every maximal printable run at least `minLength` long is reported,
      including one that runs up to the end of the data. */
  lemma RunsComplete(d: seq<byte>, minLength: nat, s: nat, e: nat)
    requires MaximalRun(d, s, e) && e - s >= minLength
    ensures AllPrintable(d[s..e])
    ensures Candidate(s, Decode(d[s..e])) in Runs(d, minLength)
  {
    RunsFromComplete(d, 0, minLength, s, e);
  }

  // ---------------------------------------------------------------------
  // The read loop.
  // ---------------------------------------------------------------------

  /** What the loop of `extract_strings` knows after consuming `d[..position]`:
      `acc` is the current printable stretch, starting at `start`, and the
      candidates found so far followed by the reference runs still ahead make
      up the reference runs of the whole data. */
  ghost predicate ScanState(d: seq<byte>, position: nat, acc: seq<byte>, start: nat,
                            found: seq<Candidate>, minLength: nat)
  {
    position <= |d| && start <= position
    && (|acc| > 0 ==> acc == d[start..position] && (start == 0 || !IsPrintable(d[start - 1])))
    && (|acc| > 0 ==> forall k :: start <= k < position ==> IsPrintable(d[k]))
    && (|acc| == 0 ==> position == 0 || !IsPrintable(d[position - 1]))
    && Runs(d, minLength) == found + RunsFrom(d, if |acc| == 0 then position else start, minLength)
  }

  /** A printable byte extends the current stretch, which starts here if the
      accumulator was empty. */
  lemma ScanPrintable(d: seq<byte>, position: nat, acc: seq<byte>, start: nat,
                      found: seq<Candidate>, minLength: nat)
    requires ScanState(d, position, acc, start, found, minLength)
    requires position < |d| && IsPrintable(d[position])
    ensures ScanState(d, position + 1, acc + [d[position]],
                      if |acc| == 0 then position else start, found, minLength)
  {
  }

  /** A non-printable byte ends the current stretch: it is reported if long
      enough and the accumulator is cleared either way. */
  lemma ScanNonPrintable(d: seq<byte>, position: nat, acc: seq<byte>, start: nat,
                         found: seq<Candidate>, minLength: nat)
    requires minLength >= 1
    requires ScanState(d, position, acc, start, found, minLength)
    requires position < |d| && !IsPrintable(d[position])
    ensures AllPrintable(acc)
    ensures ScanState(d, position + 1, [], start,
                      found + (if |acc| >= minLength then [Candidate(start, Decode(acc))] else []), minLength)
  {
    assert RunsFrom(d, position, minLength) == RunsFrom(d, position + 1, minLength);
    if |acc| > 0 {
      RunsFromRun(d, start, position, minLength);
    }
  }

  /** At end of input the pending stretch, if long enough, completes the
      reference runs. */
  lemma ScanFlush(d: seq<byte>, acc: seq<byte>, start: nat, found: seq<Candidate>, minLength: nat)
    requires minLength >= 1
    requires ScanState(d, |d|, acc, start, found, minLength)
    ensures AllPrintable(acc)
    ensures Runs(d, minLength) == found + (if |acc| >= minLength then [Candidate(start, Decode(acc))] else [])
  {
    if |acc| > 0 {
      RunsFromRun(d, start, |d|, minLength);
    }
  }

  /** The bytes of one filled buffer, processed from absolute position
      `position` on. */
  method ScanChunk(ghost d: seq<byte>, chunk: seq<byte>, position: nat, acc: seq<byte>, start: nat,
                   found: seq<Candidate>, minLength: nat)
    returns (position': nat, acc': seq<byte>, start': nat, found': seq<Candidate>)
    requires minLength >= 1
    requires position + |chunk| <= |d| && d[position..position + |chunk|] == chunk
    requires ScanState(d, position, acc, start, found, minLength)
    ensures position' == position + |chunk|
    ensures ScanState(d, position', acc', start', found', minLength)
  {
    position', acc', start', found' := position, acc, start, found;
    var j := 0;
    while j < |chunk|
      invariant 0 <= j <= |chunk|
      invariant position' == position + j
      invariant ScanState(d, position', acc', start', found', minLength)
    {
      var b := chunk[j];
      assert d[position'] == b;
      if IsPrintable(b) {
        ScanPrintable(d, position', acc', start', found', minLength);
        if |acc'| == 0 {
          start' := position';
        }
        acc' := acc' + [b];
      } else {
        ScanNonPrintable(d, position', acc', start', found', minLength);
        if |acc'| >= minLength {
          found' := found' + [Candidate(start', Decode(acc'))];
        }
        acc' := [];
      }
      position' := position' + 1;
      j := j + 1;
    }
  }

  /** The byte loop and end-of-file flush of `extract_strings`, over the
      answers of the reader. `found` is what the loop collects; `failed` says
      whether it stopped on a read error. */
  method Scan(answers: seq<ReadResult>, minLength: nat) returns (found: seq<Candidate>, failed: bool)
    requires minLength >= 1
    ensures found == Runs(Delivered(answers), minLength)
    ensures failed == StopsOnFailure(answers)
  {
    ghost var d := Delivered(answers);
    found := [];
    failed := false;
    var acc: seq<byte> := [];
    var start: nat := 0;
    var position: nat := 0;
    var r := 0;
    assert answers[r..] == answers;
    while r < |answers|
      invariant 0 <= r <= |answers|
      invariant position <= |d|
      invariant d == d[..position] + Delivered(answers[r..])
      invariant StopsOnFailure(answers) == StopsOnFailure(answers[r..])
      invariant ScanState(d, position, acc, start, found, minLength)
    {
      assert answers[r..][0] == answers[r] && answers[r..][1..] == answers[r + 1..];
      if answers[r].ReadFailed? {
        failed := true;
        break;
      }
      var chunk := answers[r].bytes;
      if |chunk| == 0 {
        break;
      }
      ghost var consumed := d[..position];
      assert d == consumed + chunk + Delivered(answers[r + 1..]);
      assert d[position..position + |chunk|] == chunk;
      position, acc, start, found := ScanChunk(d, chunk, position, acc, start, found, minLength);
      assert d[..position] == consumed + chunk;
      r := r + 1;
    }
    assert position == |d|;
    ScanFlush(d, acc, start, found, minLength);
    if |acc| >= minLength {
      found := found + [Candidate(start, Decode(acc))];
    }
  }

  /** `extract_strings` as written: a file that cannot be opened is an error,
      but a failed read ends the loop exactly like end of file, so the result
      is `Ok` with the runs of whatever was read before the failure. */
  method ExtractStrings(file: FileInput, minLength: nat) returns (r: Result<seq<Candidate>, IoError>)
    requires minLength >= 1
    ensures file.Unopenable? ==> r == Err(OpenFailed)
    ensures file.Opened? ==> r == Ok(Runs(Delivered(file.answers), minLength))
  {
    if file.Unopenable? {
      return Err(OpenFailed);
    }
    var found, _ := Scan(file.answers, minLength);
    r := Ok(found);
  }

  /** `extract_strings` with a read failure surfaced as an error instead of
      being taken for end of file. */
  method ExtractStringsChecked(file: FileInput, minLength: nat) returns (r: Result<seq<Candidate>, IoError>)
    requires minLength >= 1
    ensures file.Unopenable? ==> r == Err(OpenFailed)
    ensures file.Opened? ==> (r == Err(ReadError) <==> StopsOnFailure(file.answers))
    ensures file.Opened? && !StopsOnFailure(file.answers) ==> r == Ok(Runs(Delivered(file.answers), minLength))
  {
    if file.Unopenable? {
      return Err(OpenFailed);
    }
    var found, failed := Scan(file.answers, minLength);
    if failed {
      r := Err(ReadError);
    } else {
      r := Ok(found);
    }
  }

  /** A file delivered as the given non-empty pieces, then end of file. */
  function ReadsOf(chunks: seq<seq<byte>>): seq<ReadResult>
  {
    seq(|chunks|, i requires 0 <= i < |chunks| => Filled(chunks[i])) + [Filled([])]
  }

  /** However the file is cut into answers, the loop consumes exactly its bytes
      and does not report a failure, so the candidates depend on the bytes
      alone: the absolute position is never reset at a buffer boundary. */
  lemma {:induction false} ChunkingIrrelevant(chunks: seq<seq<byte>>, minLength: nat)
    requires forall i :: 0 <= i < |chunks| ==> |chunks[i]| > 0
    ensures Delivered(ReadsOf(chunks)) == Flatten(chunks)
    ensures !StopsOnFailure(ReadsOf(chunks))
    ensures Runs(Delivered(ReadsOf(chunks)), minLength) == Runs(Flatten(chunks), minLength)
  {
    var answers := ReadsOf(chunks);
    if |chunks| == 0 {
      assert answers == [Filled([])];
    } else {
      ChunkingIrrelevant(chunks[1..], minLength);
      assert answers[0] == Filled(chunks[0]);
      assert answers[1..] == ReadsOf(chunks[1..]);
    }
  }

  /** The bytes of the lower-case letters 'a', 'b', ... up to the `n`-th. */
  function Letters(n: nat): (bytes: seq<byte>)
    requires n <= 26
    ensures AllPrintable(bytes)
  {
    seq(n, k requires 0 <= k < n => 97 + k)
  }

  /** As written, a read error in the middle of a file truncates the output:
      the reader answers "abcdefgh", fails once, then answers "ijkl" and end
      of file. The loop stops at the failure and flushes "abcdefgh" as a
      finished string, whereas the file holds the single run "abcdefghijkl". */
  lemma ReadErrorTruncatesOutput()
    ensures var answers := [Filled(Letters(8)), ReadFailed, Filled(Letters(12)[8..]), Filled([])];
      StopsOnFailure(answers)
      && Delivered(answers) + Letters(12)[8..] == Letters(12)
      && Runs(Delivered(answers), 6) == [Candidate(0, "abcdefgh")]
      && Runs(Letters(12), 6) == [Candidate(0, "abcdefghijkl")]
  {
    var answers := [Filled(Letters(8)), ReadFailed, Filled(Letters(12)[8..]), Filled([])];
    var head := Letters(8);
    assert answers[1..][0] == ReadFailed;
    assert Delivered(answers) == head + [];
    assert Delivered(answers) == head;
    RunsFromRun(head, 0, 8, 6);
    assert RunsFrom(head, 8, 6) == [];
    assert head[0..8] == head;
    assert Decode(head) == "abcdefgh";
    var whole := Letters(12);
    RunsFromRun(whole, 0, 12, 6);
    assert whole[0..12] == whole;
    assert Decode(whole) == "abcdefghijkl";
  }
}

=== FILE: mala_dao.dfy ===
/** The statement-building and batching logic of the PostgreSQL data-access
    object: insert statements that return the new id, the batched upload of
    a file's strings, and the splitting of the extractor's line-per-record
    output. The database itself is represented by the list of stored
    procedure calls the code would make. */
module MalaDao {
  import opened TextUtil
  import opened Results
  import SqlBuilder

  /** `insert_data_returning_id`: the insert statement with the suffix that
      makes PostgreSQL hand back the new row's id. */
  function InsertDataReturningId(table: string, cols: seq<SqlBuilder.Column>): (r: string)
    ensures |r| == |SqlBuilder.GenerateInsertStatement(table, cols)| + 13
    ensures r[..|r| - 13] == SqlBuilder.GenerateInsertStatement(table, cols)
    ensures r[|r| - 13..] == "returning id;"
  {
    SqlBuilder.GenerateInsertStatement(table, cols) + "returning id;"
  }

  /** The statement opens with the table's insert header and the generated
      statement's closing parenthesis comes right before the suffix. */
  lemma ReturningIdShape(table: string, cols: seq<SqlBuilder.Column>)
    ensures var r := InsertDataReturningId(table, cols);
      var h := SqlBuilder.Header(table, cols);
      |h| < |r| - 13 && r[..|h|] == h && r[|r| - 14] == ')' && r[|r| - 15] != ','
  {
    var g := SqlBuilder.GenerateInsertStatement(table, cols);
    var r := InsertDataReturningId(table, cols);
    SqlBuilder.InsertStatementHeader(table, cols);
    assert r[..|g|] == g;
    assert r[|r| - 14] == g[|g| - 1];
    assert r[|r| - 15] == g[|g| - 2];
  }

  // ---------------------------------------------------------------------
  // `insert_string_instances`.
  // ---------------------------------------------------------------------

  /** Number of strings sent per `insert_strings` call. */
  const StepSize: nat := 256

  /** A stored procedure call. */
  datatype DbCall =
    | InsertStrings(strings: seq<string>, scores: seq<int>)
    | InsertInstances(strings: seq<string>, fileId: int, addresses: seq<int>)

  function StringsSent(calls: seq<DbCall>): (r: seq<seq<string>>)
    ensures |r| == |calls|
  {
    seq(|calls|, k requires 0 <= k < |calls| => calls[k].strings)
  }

  function ScoresSent(calls: seq<DbCall>): (r: seq<seq<int>>)
    ensures |r| == |calls|
  {
    seq(|calls|, k requires 0 <= k < |calls| => if calls[k].InsertStrings? then calls[k].scores else [])
  }

  function Min(a: int, b: int): int
  {
    if a <= b then a else b
  }

  lemma SentAppend(calls: seq<DbCall>, c: DbCall)
    ensures StringsSent(calls + [c]) == StringsSent(calls) + [c.strings]
    ensures ScoresSent(calls + [c]) == ScoresSent(calls) + [if c.InsertStrings? then c.scores else []]
  {
  }

  /** The `insert_strings` call for the slice starting at `done`. */
  function Batch(strings: seq<string>, scores: seq<int>, done: nat): DbCall
  {
    InsertStrings(Slice(strings, done, done + StepSize), Slice(scores, done, done + StepSize))
  }

  /** Sending the next slice extends what was sent by exactly that slice. */
  lemma BatchStep(strings: seq<string>, scores: seq<int>, batches: seq<DbCall>, done: nat)
    requires done < |strings|
    requires Flatten(StringsSent(batches)) == strings[..done]
    requires Flatten(ScoresSent(batches)) == scores[..Min(done, |scores|)]
    ensures 0 < |Batch(strings, scores, done).strings| <= StepSize
    ensures Flatten(StringsSent(batches + [Batch(strings, scores, done)]))
      == strings[..Min(done + StepSize, |strings|)]
    ensures Flatten(ScoresSent(batches + [Batch(strings, scores, done)]))
      == scores[..Min(done + StepSize, |scores|)]
  {
    var call := Batch(strings, scores, done);
    SentAppend(batches, call);
    FlattenAppend(StringsSent(batches), [call.strings]);
    FlattenAppend(ScoresSent(batches), [call.scores]);
    assert Flatten([call.strings]) == call.strings;
    assert Flatten([call.scores]) == call.scores;
    assert strings[..done] + call.strings == strings[..Min(done + StepSize, |strings|)];
    assert scores[..Min(done, |scores|)] + call.scores == scores[..Min(done + StepSize, |scores|)];
  }

  /** `insert_string_instances`, every call succeeding: nothing for an empty
      list; otherwise `insert_strings` on consecutive slices of at most 256
      strings and scores until the whole list is covered, then one
      `insert_string_instances` call with the full lists. */
  method InsertStringInstances(strings: seq<string>, scores: seq<int>, addresses: seq<int>, fileId: int)
    returns (calls: seq<DbCall>)
    ensures |strings| == 0 ==> calls == []
    ensures |strings| > 0 ==> |calls| >= 2 && calls[|calls| - 1] == InsertInstances(strings, fileId, addresses)
    ensures |strings| > 0 ==> StepSize * (|calls| - 2) < |strings| <= StepSize * (|calls| - 1)
    ensures |strings| > 0 ==> Batched(strings, scores, calls[..|calls| - 1])
    ensures |strings| > 0 ==> Flatten(StringsSent(calls[..|calls| - 1])) == strings
    ensures |strings| > 0 ==>
      Flatten(ScoresSent(calls[..|calls| - 1])) == scores[..Min(|scores|, StepSize * (|calls| - 1))]
  {
    if |strings| == 0 {
      return [];
    }
    var doneCount := 0;
    var success := false;
    var batches: seq<DbCall> := [];
    while !success
      invariant doneCount == StepSize * |batches|
      invariant !success ==> doneCount < |strings|
      invariant success ==> |batches| > 0 && StepSize * (|batches| - 1) < |strings| <= doneCount
      invariant Batched(strings, scores, batches)
      invariant Flatten(StringsSent(batches)) == strings[..Min(doneCount, |strings|)]
      invariant Flatten(ScoresSent(batches)) == scores[..Min(doneCount, |scores|)]
      decreases if success then 0 else |strings| - doneCount + 1
    {
      var call := Batch(strings, scores, doneCount);
      BatchStep(strings, scores, batches, doneCount);
      BatchedAppend(strings, scores, batches, call);
      batches := batches + [call];
      doneCount := doneCount + StepSize;
      if doneCount >= |strings| {
        success := true;
      }
    }
    calls := batches + [InsertInstances(strings, fileId, addresses)];
    assert calls[..|calls| - 1] == batches;
  }

  /** The calls made so far are the non-empty slices at 0, 256, 512, ... in
      order. */
  predicate Batched(strings: seq<string>, scores: seq<int>, batches: seq<DbCall>)
  {
    forall k :: 0 <= k < |batches| ==>
      batches[k] == Batch(strings, scores, StepSize * k) && 0 < |batches[k].strings| <= StepSize
  }

  lemma BatchedAppend(strings: seq<string>, scores: seq<int>, batches: seq<DbCall>, call: DbCall)
    requires Batched(strings, scores, batches)
    requires call == Batch(strings, scores, StepSize * |batches|) && 0 < |call.strings| <= StepSize
    ensures Batched(strings, scores, batches + [call])
  {
  }

  // ---------------------------------------------------------------------
  // `insert_mala_strings`.
  // ---------------------------------------------------------------------

  /** The fields `insert_mala_strings` reads from one JSON record. */
  datatype StringInstance = StringInstance(text: string, score: int, position: int)

  /** `insert_mala_strings`: nothing for empty output; otherwise one record
      per line, the piece after the last newline being ignored, decoded by
      `decode` (standing for `json.loads`), and the three field lists handed
      to `insert_string_instances`: the texts and scores go out in batches of
      at most 256, in record order, and the final call carries the texts and
      positions of all records. */
  method InsertMalaStrings(jsonData: string, fileId: int, decode: string -> StringInstance)
    returns (instances: seq<StringInstance>, calls: seq<DbCall>)
    ensures |jsonData| == 0 ==> instances == [] && calls == []
    ensures |jsonData| > 0 ==> |instances| == Count(jsonData, '\n')
    ensures |instances| < |Split(jsonData, '\n')|
    ensures forall k :: 0 <= k < |instances| ==> instances[k] == decode(Split(jsonData, '\n')[k])
    ensures |instances| == 0 ==> calls == []
    ensures |instances| > 0 ==>
      |calls| >= 2 && calls[|calls| - 1] == InsertInstances(TextsOf(instances), fileId, PositionsOf(instances))
    ensures |instances| > 0 ==> StepSize * (|calls| - 2) < |instances| <= StepSize * (|calls| - 1)
    ensures |instances| > 0 ==>
      Flatten(StringsSent(calls[..|calls| - 1])) == TextsOf(instances)
      && Flatten(ScoresSent(calls[..|calls| - 1])) == ScoresOf(instances)
    ensures |instances| > 0 ==> Batched(TextsOf(instances), ScoresOf(instances), calls[..|calls| - 1])
    ensures |instances| > 0 ==> Paired(instances, calls[..|calls| - 1])
  {
    if |jsonData| == 0 {
      return [], [];
    }
    var pieces := Split(jsonData, '\n');
    assert |pieces| == Count(jsonData, '\n') + 1 by {
      JoinSplit(jsonData, '\n');
    }
    var lines := pieces[..|pieces| - 1];
    var strings, scores, addresses;
    instances, strings, scores, addresses := DecodeLines(lines, decode);
    calls := UploadInstances(instances, fileId);
  }

  /** The hand-over to `insert_string_instances` of the decoded records'
      texts, scores and positions. */
  method UploadInstances(instances: seq<StringInstance>, fileId: int) returns (calls: seq<DbCall>)
    ensures |instances| == 0 ==> calls == []
    ensures |instances| > 0 ==>
      |calls| >= 2 && calls[|calls| - 1] == InsertInstances(TextsOf(instances), fileId, PositionsOf(instances))
    ensures |instances| > 0 ==> StepSize * (|calls| - 2) < |instances| <= StepSize * (|calls| - 1)
    ensures |instances| > 0 ==>
      Flatten(StringsSent(calls[..|calls| - 1])) == TextsOf(instances)
      && Flatten(ScoresSent(calls[..|calls| - 1])) == ScoresOf(instances)
    ensures |instances| > 0 ==> Batched(TextsOf(instances), ScoresOf(instances), calls[..|calls| - 1])
    ensures |instances| > 0 ==> Paired(instances, calls[..|calls| - 1])
  {
    calls := InsertStringInstances(TextsOf(instances), ScoresOf(instances), PositionsOf(instances), fileId);
    if |instances| > 0 {
      var scores := ScoresOf(instances);
      assert scores[..|scores|] == scores;
      BatchedPaired(instances, calls[..|calls| - 1]);
    }
  }

  /** Call `k` sends the records `256k`, `256k + 1`, ... and pairs each
      record's text with that record's own score. */
  predicate Paired(instances: seq<StringInstance>, batches: seq<DbCall>)
  {
    forall k, j :: 0 <= k < |batches| && 0 <= j < |batches[k].strings| ==>
      batches[k].InsertStrings? && |batches[k].scores| == |batches[k].strings|
      && StepSize * k + j < |instances|
      && batches[k].strings[j] == instances[StepSize * k + j].text
      && batches[k].scores[j] == instances[StepSize * k + j].score
  }

  /** Slicing the texts and the scores at the same offsets keeps each text
      with its record's score. */
  lemma BatchedPaired(instances: seq<StringInstance>, batches: seq<DbCall>)
    requires Batched(TextsOf(instances), ScoresOf(instances), batches)
    ensures Paired(instances, batches)
  {
  }

  /** The loop of `insert_mala_strings`: decode each line and collect the
      texts, scores and positions of the records in order. */
  method DecodeLines(lines: seq<string>, decode: string -> StringInstance)
    returns (instances: seq<StringInstance>, strings: seq<string>, scores: seq<int>, addresses: seq<int>)
    ensures |instances| == |lines|
    ensures forall k :: 0 <= k < |lines| ==> instances[k] == decode(lines[k])
    ensures strings == TextsOf(instances) && scores == ScoresOf(instances)
    ensures addresses == PositionsOf(instances)
  {
    instances := [];
    strings := [];
    scores := [];
    addresses := [];
    var i := 0;
    while i < |lines|
      invariant 0 <= i <= |lines|
      invariant |instances| == i
      invariant forall k :: 0 <= k < i ==> instances[k] == decode(lines[k])
      invariant strings == TextsOf(instances) && addresses == PositionsOf(instances)
      invariant scores == ScoresOf(instances)
    {
      var inst := decode(lines[i]);
      instances := instances + [inst];
      strings := strings + [inst.text];
      scores := scores + [inst.score];
      addresses := addresses + [inst.position];
      i := i + 1;
    }
  }

  function TextsOf(xs: seq<StringInstance>): (r: seq<string>)
    ensures |r| == |xs| && forall k :: 0 <= k < |xs| ==> r[k] == xs[k].text
  {
    if |xs| == 0 then [] else TextsOf(xs[..|xs| - 1]) + [xs[|xs| - 1].text]
  }

  function ScoresOf(xs: seq<StringInstance>): (r: seq<int>)
    ensures |r| == |xs| && forall k :: 0 <= k < |xs| ==> r[k] == xs[k].score
  {
    if |xs| == 0 then [] else ScoresOf(xs[..|xs| - 1]) + [xs[|xs| - 1].score]
  }

  function PositionsOf(xs: seq<StringInstance>): (r: seq<int>)
    ensures |r| == |xs| && forall k :: 0 <= k < |xs| ==> r[k] == xs[k].position
  {
    if |xs| == 0 then [] else PositionsOf(xs[..|xs| - 1]) + [xs[|xs| - 1].position]
  }

  /** For output that is one record per newline-terminated line, as the
      extractor prints it, the records are decoded from exactly those lines,
      in order. */
  lemma NewlineTerminatedRecords(lines: seq<string>)
    requires |lines| > 0
    requires forall k :: 0 <= k < |lines| ==> '\n' !in lines[k]
    ensures Count(Join(lines + [""], "\n"), '\n') == |lines|
    ensures |Split(Join(lines + [""], "\n"), '\n')| == |lines| + 1
    ensures Split(Join(lines + [""], "\n"), '\n')[..|lines|] == lines
  {
    var all := lines + [""];
    assert forall k :: 0 <= k < |all| ==> '\n' !in all[k] by {
      forall k | 0 <= k < |all|
        ensures '\n' !in all[k]
      {
        if k < |lines| {
          assert all[k] == lines[k];
        }
      }
    }
    SplitJoin(all, '\n');
    JoinSplit(Join(all, "\n"), '\n');
    assert all[..|lines|] == lines;
  }
}

=== FILE: scorer.dfy ===
/** The integer skeleton of `enhanced_human_readable` in mala_strings.rs:
    the length guard, the `EMERGENT` reference alphabet, the frequency and rank
    vectors and the distinct-character count. The floating-point part (cosine
    similarity, diversity ratio, weighting and truncation) is a parameter: a
    function of these integer features. */
module Scorer {
  import opened TextUtil

  /** `MAX_STRING_CHAR_LIMIT`. */
  const MaxStringCharLimit: nat := 2600

  /** Largest value of a Rust `i32`. */
  const I32Max: int := 0x7fff_ffff

  /** `EMERGENT[i]`: the reference alphabet, most frequent character first. */
  function EmergentAt(i: nat): char
  {
    match i
    case 0 => 'e' case 1 => ' ' case 2 => 't' case 3 => '1' case 4 => '|' case 5 => 'o' case 6 => 'a'
    case 7 => 'r' case 8 => 'i' case 9 => 'n' case 10 => 's' case 11 => 'l' case 12 => '2' case 13 => '3'
    case 14 => 'd' case 15 => 'c' case 16 => '8' case 17 => '7' case 18 => '0' case 19 => '6' case 20 => '4'
    case 21 => 'm' case 22 => '9' case 23 => 'u' case 24 => '5' case 25 => 'p' case 26 => 'E' case 27 => 'S'
    case 28 => 'A' case 29 => 'C' case 30 => 'g' case 31 => 'f' case 32 => 'T' case 33 => 'h' case 34 => 'b'
    case 35 => 'y' case 36 => '\"' case 37 => 'I' case 38 => 'v' case 39 => 'L' case 40 => 'D' case 41 => 'R'
    case 42 => 'w' case 43 => '-' case 44 => '_' case 45 => 'P' case 46 => 'O' case 47 => '.' case 48 => 'N'
    case 49 => 'F' case 50 => 'x' case 51 => '\\' case 52 => 'M' case 53 => 'W' case 54 => '%' case 55 => 'V'
    case 56 => 'U' case 57 => 'k' case 58 => 'G' case 59 => 'H' case 60 => 'B' case 61 => ':' case 62 => '@'
    case 63 => ',' case 64 => 'q' case 65 => '?' case 66 => '=' case 67 => ']' case 68 => ';' case 69 => '['
    case 70 => '(' case 71 => '<' case 72 => 'Q' case 73 => '\'' case 74 => 'j' case 75 => 'X' case 76 => '>'
    case 77 => ')' case 78 => 'Y' case 79 => 'K' case 80 => 'z' case 81 => '$' case 82 => '/' case 83 => 'Z'
    case 84 => '*' case 85 => 'J' case 86 => '+' case 87 => '`' case 88 => '^' case 89 => '!' case 90 => '&'
    case 91 => '#' case 92 => '~' case 93 => '}' case 94 => '{'
    case _ => ' '
  }

  /** `EMERGENT` as a sequence. */
  const Emergent: seq<char> := Alphabet()

  function Alphabet(): (r: seq<char>)
    ensures |r| == 95
  {
    seq(95, i requires 0 <= i < 95 => EmergentAt(i))
  }

  /** The 1-based rank of each character of the alphabet, as tabulated by the
      `emergent_freq` dictionary of tool_runner.py; 0 for any other character. */
  function EmergentRank(c: char): nat
  {
    match c
    case 'e' => 1 case ' ' => 2 case 't' => 3 case '1' => 4 case '|' => 5 case 'o' => 6 case 'a' => 7
    case 'r' => 8 case 'i' => 9 case 'n' => 10 case 's' => 11 case 'l' => 12 case '2' => 13 case '3' => 14
    case 'd' => 15 case 'c' => 16 case '8' => 17 case '7' => 18 case '0' => 19 case '6' => 20 case '4' => 21
    case 'm' => 22 case '9' => 23 case 'u' => 24 case '5' => 25 case 'p' => 26 case 'E' => 27 case 'S' => 28
    case 'A' => 29 case 'C' => 30 case 'g' => 31 case 'f' => 32 case 'T' => 33 case 'h' => 34 case 'b' => 35
    case 'y' => 36 case '\"' => 37 case 'I' => 38 case 'v' => 39 case 'L' => 40 case 'D' => 41 case 'R' => 42
    case 'w' => 43 case '-' => 44 case '_' => 45 case 'P' => 46 case 'O' => 47 case '.' => 48 case 'N' => 49
    case 'F' => 50 case 'x' => 51 case '\\' => 52 case 'M' => 53 case 'W' => 54 case '%' => 55 case 'V' => 56
    case 'U' => 57 case 'k' => 58 case 'G' => 59 case 'H' => 60 case 'B' => 61 case ':' => 62 case '@' => 63
    case ',' => 64 case 'q' => 65 case '?' => 66 case '=' => 67 case ']' => 68 case ';' => 69 case '[' => 70
    case '(' => 71 case '<' => 72 case 'Q' => 73 case '\'' => 74 case 'j' => 75 case 'X' => 76 case '>' => 77
    case ')' => 78 case 'Y' => 79 case 'K' => 80 case 'z' => 81 case '$' => 82 case '/' => 83 case 'Z' => 84
    case '*' => 85 case 'J' => 86 case '+' => 87 case '`' => 88 case '^' => 89 case '!' => 90 case '&' => 91
    case '#' => 92 case '~' => 93 case '}' => 94 case '{' => 95
    case _ => 0
  }

  lemma CoversCodes32To50(c: char)
    requires 32 <= c as int <= 50
    ensures 1 <= EmergentRank(c) <= 95 && EmergentAt(EmergentRank(c) - 1) == c
  {
  }

  lemma CoversCodes51To69(c: char)
    requires 51 <= c as int <= 69
    ensures 1 <= EmergentRank(c) <= 95 && EmergentAt(EmergentRank(c) - 1) == c
  {
  }

  lemma CoversCodes70To88(c: char)
    requires 70 <= c as int <= 88
    ensures 1 <= EmergentRank(c) <= 95 && EmergentAt(EmergentRank(c) - 1) == c
  {
  }

  lemma CoversCodes89To107(c: char)
    requires 89 <= c as int <= 107
    ensures 1 <= EmergentRank(c) <= 95 && EmergentAt(EmergentRank(c) - 1) == c
  {
  }

  lemma CoversCodes108To126(c: char)
    requires 108 <= c as int <= 126
    ensures 1 <= EmergentRank(c) <= 95 && EmergentAt(EmergentRank(c) - 1) == c
  {
  }

  lemma PrintableAt0To18(i: nat)
    requires 0 <= i <= 18
    ensures 32 <= EmergentAt(i) as int <= 126
  {
  }

  lemma PrintableAt19To37(i: nat)
    requires 19 <= i <= 37
    ensures 32 <= EmergentAt(i) as int <= 126
  {
  }

  lemma PrintableAt38To56(i: nat)
    requires 38 <= i <= 56
    ensures 32 <= EmergentAt(i) as int <= 126
  {
  }

  lemma PrintableAt57To75(i: nat)
    requires 57 <= i <= 75
    ensures 32 <= EmergentAt(i) as int <= 126
  {
  }

  lemma PrintableAt76To94(i: nat)
    requires 76 <= i <= 94
    ensures 32 <= EmergentAt(i) as int <= 126
  {
  }

  predicate IsPrintableChar(c: char)
  {
    32 <= c as int <= 126
  }

  /** Every entry of the alphabet is a printable ASCII character. */
  lemma EmergentPrintable()
    ensures |Emergent| == 95
    ensures forall i :: 0 <= i < |Emergent| ==> IsPrintableChar(Emergent[i])
  {
    forall i | 0 <= i < 95
      ensures IsPrintableChar(Emergent[i])
    {
      if i <= 18 { PrintableAt0To18(i); }
      else if i <= 37 { PrintableAt19To37(i); }
      else if i <= 56 { PrintableAt38To56(i); }
      else if i <= 75 { PrintableAt57To75(i); }
      else { PrintableAt76To94(i); }
    }
  }

  /** Every printable ASCII character occurs in the alphabet, at the position
      its tabulated rank gives. */
  lemma EmergentCovers()
    ensures forall c: char :: IsPrintableChar(c) ==>
      1 <= EmergentRank(c) <= 95 && Emergent[EmergentRank(c) - 1] == c
  {
    forall c: char | IsPrintableChar(c)
      ensures 1 <= EmergentRank(c) <= 95 && Emergent[EmergentRank(c) - 1] == c
    {
      if c as int <= 50 { CoversCodes32To50(c); }
      else if c as int <= 69 { CoversCodes51To69(c); }
      else if c as int <= 88 { CoversCodes70To88(c); }
      else if c as int <= 107 { CoversCodes89To107(c); }
      else { CoversCodes108To126(c); }
    }
  }

  /** The printable ASCII characters in code order. */
  const PrintableChars: seq<char> := CodeOrder()

  function CodeOrder(): (r: seq<char>)
    ensures |r| == 95
  {
    seq(95, k requires 0 <= k < 95 => (k + 32) as char)
  }

  function Elements<T>(s: seq<T>): set<T>
  {
    set x | x in s
  }

  lemma {:induction false} ElementsBound<T>(s: seq<T>)
    ensures |Elements(s)| <= |s|
    ensures Distinct(s) ==> |Elements(s)| == |s|
    ensures |Elements(s)| == |s| ==> Distinct(s)
  {
    if |s| > 0 {
      var rest := s[1..];
      ElementsBound(rest);
      assert Elements(s) == {s[0]} + Elements(rest);
      if s[0] in rest {
        assert Elements(s) == Elements(rest);
        assert !Distinct(s) by {
          var j :| 0 <= j < |rest| && rest[j] == s[0];
          assert s[0] == s[j + 1];
        }
      } else {
        assert |Elements(s)| == |Elements(rest)| + 1;
        if |Elements(s)| == |s| {
          forall i, j | 0 <= i < j < |s|
            ensures s[i] != s[j]
          {
            if i == 0 {
              assert s[j] == rest[j - 1];
            } else {
              assert s[i] == rest[i - 1] && s[j] == rest[j - 1];
            }
          }
        }
        if Distinct(s) {
          assert Distinct(rest) by {
            forall i, j | 0 <= i < j < |rest|
              ensures rest[i] != rest[j]
            {
              assert rest[i] == s[i + 1] && rest[j] == s[j + 1];
            }
          }
        }
      }
    }
  }

  /** `EMERGENT` holds 95 distinct characters: it covers all 95 printable
      characters, so none can repeat. */
  lemma EmergentDistinct()
    ensures Distinct(Emergent)
  {
    EmergentCovers();
    assert Distinct(PrintableChars);
    ElementsBound(PrintableChars);
    ElementsBound(Emergent);
    assert Elements(PrintableChars) <= Elements(Emergent) by {
      forall c | c in Elements(PrintableChars)
        ensures c in Elements(Emergent)
      {
        var k :| 0 <= k < 95 && PrintableChars[k] == c;
        assert IsPrintableChar(c);
        assert Emergent[EmergentRank(c) - 1] == c;
      }
    }
    SubsetCardinality(Elements(PrintableChars), Elements(Emergent));
  }

  lemma SubsetCardinality<T>(a: set<T>, b: set<T>)
    requires a <= b
    ensures |a| <= |b|
  {
    assert b == a + (b - a);
  }

  /** The `emergent_freq` table is exactly `{char: idx for idx, char in
      enumerate(emergent, 1)}`: the rank of each alphabet entry is its
      1-based position, and every printable character has a rank. */
  lemma EmergentRankIsPosition()
    ensures forall i :: 0 <= i < |Emergent| ==> EmergentRank(Emergent[i]) == i + 1
    ensures forall c: char :: EmergentRank(c) > 0 <==> c in Emergent
  {
    EmergentPrintable();
    EmergentCovers();
    EmergentDistinct();
    forall i | 0 <= i < 95
      ensures EmergentRank(Emergent[i]) == i + 1
    {
      var c := Emergent[i];
      assert Emergent[EmergentRank(c) - 1] == c;
    }
    forall c: char
      ensures EmergentRank(c) > 0 <==> c in Emergent
    {
      if EmergentRank(c) > 0 {
        RankedIsPrintable(c);
      }
    }
  }

  /** Only printable characters are ranked. */
  lemma RankedIsPrintable(c: char)
    requires EmergentRank(c) > 0
    ensures IsPrintableChar(c)
  {
  }

  // ---------------------------------------------------------------------
  // Integer features of a candidate string.
  // ---------------------------------------------------------------------

  /** `(1..=n).rev()`: the values n, n - 1, ..., 1. */
  function Countdown(n: nat): (r: seq<int>)
    ensures |r| == n
  {
    if n == 0 then [] else [n as int] + Countdown(n - 1)
  }

  /** `(1..=n).rev()` holds n - i at index i. */
  lemma {:induction false} CountdownValues(n: nat)
    ensures forall i :: 0 <= i < n ==> Countdown(n)[i] == n - i
  {
    if n > 0 {
      CountdownValues(n - 1);
      assert forall i :: 1 <= i < n ==> Countdown(n)[i] == Countdown(n - 1)[i - 1];
    }
  }

  /** The rank vector of `enhanced_human_readable`: 95, 94, ..., 1. */
  function RankVector(): (r: seq<int>)
    ensures |r| == 95
  {
    Countdown(AlphabetSize)
  }

  const AlphabetSize: nat := 95

  /** The frequency table the `HashMap` accumulates: one increment of the
      character's entry per character of the text. */
  function Tally(text: string): map<char, nat>
  {
    if |text| == 0 then map[]
    else
      var m := Tally(text[..|text| - 1]);
      var c := text[|text| - 1];
      m[c := Lookup(m, c) + 1]
  }

  /** `*map.get(&c).unwrap_or(&0)`. */
  function Lookup(m: map<char, nat>, c: char): nat
  {
    if c in m then m[c] else 0
  }

  /** The table holds, for every character, its number of occurrences. */
  lemma {:induction false} TallyCounts(text: string, c: char)
    ensures Lookup(Tally(text), c) == Count(text, c)
  {
    if |text| > 0 {
      var init := text[..|text| - 1];
      TallyCounts(init, c);
      CountAppend(init, [text[|text| - 1]], c);
      assert init + [text[|text| - 1]] == text;
    }
  }

  /** `text_vector`: the table entry of each alphabet character. */
  function TextVector(text: string): seq<int>
  {
    seq(95, i requires 0 <= i < 95 => Lookup(Tally(text), Emergent[i]) as int)
  }

  /** Number of characters of `text` that belong to `keys`. */
  function CountIn(text: string, keys: seq<char>): nat
  {
    if |text| == 0 then 0 else (if text[0] in keys then 1 else 0) + CountIn(text[1..], keys)
  }

  function CountsOf(text: string, keys: seq<char>): seq<int>
  {
    seq(|keys|, i requires 0 <= i < |keys| => Count(text, keys[i]) as int)
  }

  lemma {:induction false} CountInSplit(text: string, keys: seq<char>)
    requires |keys| > 0 && keys[0] !in keys[1..]
    ensures CountIn(text, keys) == Count(text, keys[0]) + CountIn(text, keys[1..])
  {
    if |text| > 0 {
      CountInSplit(text[1..], keys);
      assert text[0] in keys <==> text[0] == keys[0] || text[0] in keys[1..];
    }
  }

  /** For a list of distinct keys, the per-key counts add up to the number
      of characters that are keys. */
  lemma {:induction false} SumOfCounts(text: string, keys: seq<char>)
    requires Distinct(keys)
    ensures Sum(CountsOf(text, keys)) == CountIn(text, keys)
  {
    if |keys| == 0 {
      assert CountIn(text, keys) == 0 by { CountInNone(text, keys); }
    } else {
      assert keys[0] !in keys[1..];
      assert Distinct(keys[1..]);
      SumOfCounts(text, keys[1..]);
      CountInSplit(text, keys);
      assert CountsOf(text, keys)[1..] == CountsOf(text, keys[1..]);
    }
  }

  lemma {:induction false} CountInNone(text: string, keys: seq<char>)
    requires |keys| == 0
    ensures CountIn(text, keys) == 0
  {
    if |text| > 0 {
      CountInNone(text[1..], keys);
    }
  }

  lemma {:induction false} CountInBounds(text: string, keys: seq<char>)
    ensures CountIn(text, keys) <= |text|
    ensures (forall k :: 0 <= k < |text| ==> text[k] in keys) ==> CountIn(text, keys) == |text|
  {
    if |text| > 0 {
      CountInBounds(text[1..], keys);
      assert forall k :: 1 <= k < |text| ==> text[1..][k - 1] == text[k];
    }
  }

  /** The distinct-character count: the size of the `HashSet` of the text's
      characters. */
  function DistinctCount(text: string): nat
  {
    |Elements(text)|
  }

  /** `str::len`: the length of the text in UTF-8 bytes. */
  function Utf8Length(text: string): nat
  {
    if |text| == 0 then 0
    else
      var c := text[0] as int;
      (if c < 0x80 then 1 else if c < 0x800 then 2 else if c < 0x1_0000 then 3 else 4)
      + Utf8Length(text[1..])
  }

  /** The integer inputs of the floating-point part of the score. */
  datatype Features = Features(textVector: seq<int>, rankVector: seq<int>, distinct: nat, length: nat)

  function FeaturesOf(text: string): Features
  {
    Features(TextVector(text), RankVector(), DistinctCount(text), Utf8Length(text))
  }

  /** `enhanced_human_readable`: 0 for an empty text or one longer than the
      cap, otherwise whatever the floating-point combination `combine` makes
      of the integer features. */
  function EnhancedHumanReadable(text: string, combine: Features -> int): (score: int)
    ensures Utf8Length(text) == 0 || Utf8Length(text) > MaxStringCharLimit ==> score == 0
  {
    if Utf8Length(text) > MaxStringCharLimit || Utf8Length(text) == 0 then 0
    else combine(FeaturesOf(text))
  }

  predicate IsAscii(text: string)
  {
    forall k :: 0 <= k < |text| ==> text[k] as int < 0x80
  }

  /** On ASCII text the byte length is the character count, and it is 0
      exactly for the empty text. */
  lemma {:induction false} Utf8LengthOfAscii(text: string)
    ensures Utf8Length(text) >= |text|
    ensures IsAscii(text) ==> Utf8Length(text) == |text|
  {
    if |text| > 0 {
      Utf8LengthOfAscii(text[1..]);
      assert IsAscii(text) ==> IsAscii(text[1..]);
    }
  }

  // ---------------------------------------------------------------------
  // The integer sums of `cosine_similarity`.
  // ---------------------------------------------------------------------

  /** `a.iter().zip(b.iter()).map(|(x, y)| x * y).sum()`. */
  function Dot(a: seq<int>, b: seq<int>): int
    requires |a| == |b|
  {
    if |a| == 0 then 0 else a[0] * b[0] + Dot(a[1..], b[1..])
  }

  /** `a.iter().map(|&x| x.pow(2)).sum()`. */
  function SumOfSquares(a: seq<int>): int
  {
    if |a| == 0 then 0 else a[0] * a[0] + SumOfSquares(a[1..])
  }

  predicate NonNegative(a: seq<int>)
  {
    forall i :: 0 <= i < |a| ==> a[i] >= 0
  }

  lemma {:induction false} DotBound(a: seq<int>, b: seq<int>, m: int)
    requires |a| == |b| && NonNegative(a) && NonNegative(b)
    requires forall i :: 0 <= i < |b| ==> b[i] <= m
    ensures 0 <= Dot(a, b) <= m * Sum(a)
  {
    if |a| > 0 {
      DotBound(a[1..], b[1..], m);
      assert a[0] * b[0] <= a[0] * m by {
        assert a[0] * (m - b[0]) >= 0;
      }
      assert a[0] * b[0] >= 0;
    }
  }

  lemma {:induction false} SumOfSquaresBound(a: seq<int>)
    requires NonNegative(a)
    ensures 0 <= Sum(a) && 0 <= SumOfSquares(a) <= Sum(a) * Sum(a)
  {
    if |a| > 0 {
      SumOfSquaresBound(a[1..]);
      var x, r := a[0], Sum(a[1..]);
      assert (x + r) * (x + r) == x * x + 2 * x * r + r * r;
      assert x * r >= 0;
    }
  }

  lemma {:induction false} SumOfSquaresCountdown(n: nat)
    ensures 6 * SumOfSquares(Countdown(n)) == n * (n + 1) * (2 * n + 1)
  {
    if n > 0 {
      SumOfSquaresCountdown(n - 1);
      assert Countdown(n)[1..] == Countdown(n - 1);
      var previous := SumOfSquares(Countdown(n - 1));
      assert SumOfSquares(Countdown(n)) == n * n + previous;
      SquarePyramidStep(n);
    }
  }

  /** The step of the square-pyramidal sum formula. */
  lemma SquarePyramidStep(n: int)
    ensures n * (n + 1) * (2 * n + 1) == (n - 1) * n * (2 * n - 1) + 6 * (n * n)
  {
    var m := n * n;
    assert n * (n + 1) * (2 * n + 1) == 2 * m * n + 3 * m + n;
    assert (n - 1) * n * (2 * n - 1) == 2 * m * n - 3 * m + n;
  }

  /** Entry `i` of the text vector is the number of occurrences of the
      alphabet's `i`-th character. */
  lemma TextVectorCounts(text: string)
    ensures |TextVector(text)| == 95
    ensures forall i :: 0 <= i < 95 ==> TextVector(text)[i] == Count(text, Emergent[i])
  {
    forall i | 0 <= i < 95
      ensures TextVector(text)[i] == Count(text, Emergent[i])
    {
      TallyCounts(text, Emergent[i]);
    }
  }

  predicate AllPrintableChars(text: string)
  {
    forall k :: 0 <= k < |text| ==> IsPrintableChar(text[k])
  }

  /** The text vector never counts more characters than the text has, and on
      printable text it counts every character exactly once. */
  lemma TextVectorSum(text: string)
    ensures Sum(TextVector(text)) <= |text|
    ensures AllPrintableChars(text) ==> Sum(TextVector(text)) == |text|
  {
    TextVectorCounts(text);
    assert TextVector(text) == CountsOf(text, Emergent);
    EmergentDistinct();
    SumOfCounts(text, Emergent);
    CountInBounds(text, Emergent);
    if AllPrintableChars(text) {
      PrintableInEmergent(text);
    }
  }

  lemma PrintableInEmergent(text: string)
    requires AllPrintableChars(text)
    ensures forall k :: 0 <= k < |text| ==> text[k] in Emergent
  {
    EmergentCovers();
    forall k | 0 <= k < |text|
      ensures text[k] in Emergent
    {
      assert Emergent[EmergentRank(text[k]) - 1] == text[k];
    }
  }

  /** No character of `text` is in the alphabet. */
  predicate AlphabetFree(text: string)
  {
    forall k :: 0 <= k < |text| ==> text[k] !in Emergent
  }

  lemma {:induction false} CountInZero(text: string, keys: seq<char>)
    ensures CountIn(text, keys) == 0 <==> forall k :: 0 <= k < |text| ==> text[k] !in keys
  {
    if |text| > 0 {
      CountInZero(text[1..], keys);
      assert forall k :: 1 <= k < |text| ==> text[1..][k - 1] == text[k];
    }
  }

  /** The text vector is all zeros exactly when no character of the text is
      in the alphabet. */
  lemma ZeroVectorIffAlphabetFree(text: string)
    ensures Sum(TextVector(text)) == 0 <==> AlphabetFree(text)
  {
    TextVectorCounts(text);
    assert TextVector(text) == CountsOf(text, Emergent);
    EmergentDistinct();
    SumOfCounts(text, Emergent);
    CountInZero(text, Emergent);
  }

  /** A non-empty text has between 1 and `len` distinct characters, and at
      most 95 when it is printable. */
  lemma DistinctCountBounds(text: string)
    requires |text| > 0
    ensures 1 <= DistinctCount(text) <= |text|
    ensures AllPrintableChars(text) ==> DistinctCount(text) <= 95
  {
    ElementsBound(text);
    assert text[0] in Elements(text);
    if AllPrintableChars(text) {
      PrintableInEmergent(text);
      assert Elements(text) <= Elements(Emergent);
      ElementsBound(Emergent);
      SubsetCardinality(Elements(text), Elements(Emergent));
    }
  }

  /** Under the length cap, every integer sum `cosine_similarity` forms
      (the dot product and both sums of squares) fits in an `i32`. */
  lemma CosineSumsFitI32(text: string)
    requires Utf8Length(text) <= MaxStringCharLimit
    ensures 0 <= Dot(TextVector(text), RankVector()) <= I32Max
    ensures 0 <= SumOfSquares(TextVector(text)) <= I32Max
    ensures SumOfSquares(RankVector()) == 290320
  {
    TextVectorCounts(text);
    RankVectorValues();
    TextVectorSum(text);
    Utf8LengthOfAscii(text);
    VectorSumsBound(TextVector(text), RankVector(), MaxStringCharLimit);
    RankVectorSquares();
  }

  /** The arithmetic behind the `i32` bound: for non-negative counts adding up
      to at most `cap` and ranks of at most 95, the dot product is at most
      95 * cap and the sum of squares at most cap squared. */
  lemma VectorSumsBound(tv: seq<int>, rv: seq<int>, cap: nat)
    requires |tv| == |rv| && Sum(tv) <= cap
    requires forall i :: 0 <= i < |tv| ==> tv[i] >= 0
    requires forall i :: 0 <= i < |rv| ==> 0 <= rv[i] <= 95
    ensures 0 <= Dot(tv, rv) <= 95 * cap
    ensures 0 <= SumOfSquares(tv) <= cap * cap
  {
    assert NonNegative(tv) && NonNegative(rv);
    DotBound(tv, rv, 95);
    SumOfSquaresBound(tv);
    assert Sum(tv) * Sum(tv) <= cap * cap by {
      MulMonotone(Sum(tv), cap);
    }
  }

  lemma MulMonotone(a: nat, b: nat)
    requires a <= b
    ensures a * a <= b * b
  {
    assert a * a <= a * b <= b * b;
  }

  lemma RankVectorSquares()
    ensures SumOfSquares(RankVector()) == 290320
  {
    var n := AlphabetSize;
    SumOfSquaresCountdown(n);
    assert n * (n + 1) * (2 * n + 1) == 1741920;
  }

  /** Entry `i` of the rank vector is 95 - i. */
  lemma RankVectorValues()
    ensures forall i :: 0 <= i < 95 ==> RankVector()[i] == 95 - i
  {
    CountdownValues(AlphabetSize);
  }
}

=== FILE: sql_builder.dfy ===
/** The SQL text builder both data-access layers share
    (`generate_insert_statement`), with the single-quote doubling it applies
    to string values, and a reader for SQL string literals that shows the
    doubling is undone exactly. */
module SqlBuilder {
  import opened TextUtil
  import opened Results

  /** A column value: a Python `str`, or any other value, given by what
      `str(value)` renders it as. */
  datatype SqlValue = Text(s: string) | Other(rendered: string)

  /** One entry of the data dictionary, in insertion order. */
  datatype Column = Column(name: string, value: SqlValue)

  // ---------------------------------------------------------------------
  // Quote doubling and SQL string literals.
  // ---------------------------------------------------------------------

  /** `s.replace("'", "''")`. */
  function DoubleQuotes(s: string): (r: string)
    ensures |r| == |s| + Count(s, '\'')
  {
    if |s| == 0 then ""
    else (if s[0] == '\'' then "''" else [s[0]]) + DoubleQuotes(s[1..])
  }

  lemma {:induction false} DoubleQuotesAppend(a: string, b: string)
    ensures DoubleQuotes(a + b) == DoubleQuotes(a) + DoubleQuotes(b)
  {
    if |a| == 0 {
      assert a + b == b;
    } else {
      assert (a + b)[0] == a[0];
      assert (a + b)[1..] == a[1..] + b;
      DoubleQuotesAppend(a[1..], b);
    }
  }

  /** Every quote of the doubled text belongs to a pair: reading pairs back
      as single quotes restores the original. */
  function UndoubleQuotes(s: string): string
  {
    if |s| == 0 then ""
    else if |s| >= 2 && s[0] == '\'' && s[1] == '\'' then "'" + UndoubleQuotes(s[2..])
    else [s[0]] + UndoubleQuotes(s[1..])
  }

  lemma {:induction false} UndoubleDoubled(s: string)
    ensures UndoubleQuotes(DoubleQuotes(s)) == s
  {
    if |s| > 0 {
      UndoubleDoubled(s[1..]);
      var d := DoubleQuotes(s);
      if s[0] == '\'' {
        assert d == "''" + DoubleQuotes(s[1..]);
        assert d[2..] == DoubleQuotes(s[1..]);
      } else {
        assert d == [s[0]] + DoubleQuotes(s[1..]);
        assert d[1..] == DoubleQuotes(s[1..]);
      }
      assert s == [s[0]] + s[1..];
    }
  }

  /** `'` + doubled text + `'`: how a string value is written into a
      statement. */
  function Quote(s: string): (r: string)
    ensures |r| == |s| + Count(s, '\'') + 2
    ensures r[0] == '\'' && r[|r| - 1] == '\''
  {
    "'" + DoubleQuotes(s) + "'"
  }

  /** How SQL reads a string literal whose opening quote has been consumed:
      two quotes stand for one, a lone quote closes the literal. The result is
      the literal's value and the text after the closing quote, or `None`
      when the literal is never closed. */
  function ReadLiteral(s: string): Option<(string, string)>
  {
    if |s| == 0 then None
    else if s[0] == '\'' then
      if |s| >= 2 && s[1] == '\'' then
        match ReadLiteral(s[2..])
        case None => None
        case Some(p) => Some(("'" + p.0, p.1))
      else Some(("", s[1..]))
    else
      match ReadLiteral(s[1..])
      case None => None
      case Some(p) => Some(([s[0]] + p.0, p.1))
  }

  /** A quoted value reads back as exactly that value, and the literal ends
      at the closing quote the builder wrote, whatever follows it (as long as
      it is not a quote, which would continue the literal): a quote inside the
      value can never close the literal early. */
  lemma {:induction false} ReadQuoted(s: string, rest: string)
    requires rest == "" || rest[0] != '\''
    ensures Quote(s)[0] == '\''
    ensures ReadLiteral(Quote(s)[1..] + rest) == Some((s, rest))
  {
    assert Quote(s)[1..] == DoubleQuotes(s) + "'";
    ReadDoubled(s, rest);
  }

  lemma {:induction false} ReadDoubled(s: string, rest: string)
    requires rest == "" || rest[0] != '\''
    ensures ReadLiteral(DoubleQuotes(s) + "'" + rest) == Some((s, rest))
  {
    var t := DoubleQuotes(s) + "'" + rest;
    if |s| == 0 {
      assert t == "'" + rest;
      assert t[1..] == rest;
    } else {
      ReadDoubled(s[1..], rest);
      var u := DoubleQuotes(s[1..]) + "'" + rest;
      if s[0] == '\'' {
        assert t == "''" + u;
        assert t[2..] == u;
      } else {
        assert t == [s[0]] + u;
        assert t[1..] == u;
      }
      assert s == [s[0]] + s[1..];
    }
  }

  // ---------------------------------------------------------------------
  // `generate_insert_statement`.
  // ---------------------------------------------------------------------

  /** How one value is written: strings quoted with doubling, everything
      else as `str(value)`, unquoted. */
  function Render(v: SqlValue): string
  {
    match v
    case Text(s) => Quote(s)
    case Other(r) => r
  }

  function Names(cols: seq<Column>): (names: seq<string>)
    ensures |names| == |cols|
    ensures forall k :: 0 <= k < |cols| ==> names[k] == cols[k].name
  {
    seq(|cols|, k requires 0 <= k < |cols| => cols[k].name)
  }

  function Renders(cols: seq<Column>): (rs: seq<string>)
    ensures |rs| == |cols|
    ensures forall k :: 0 <= k < |cols| ==> rs[k] == Render(cols[k].value)
  {
    seq(|cols|, k requires 0 <= k < |cols| => Render(cols[k].value))
  }

  /** `INSERT INTO <table>(<columns>) VALUES(`. */
  function Header(table: string, cols: seq<Column>): string
  {
    "INSERT INTO " + table + "(" + Join(Names(cols), ",") + ") VALUES("
  }

  /** Each rendered value followed by a comma, in column order. */
  function ValueList(cols: seq<Column>): string
  {
    if |cols| == 0 then "" else Render(cols[0].value) + "," + ValueList(cols[1..])
  }

  /** `s.rstrip(",")`: the longest prefix that does not end in a comma. */
  function RStripCommas(s: string): (r: string)
    ensures |r| <= |s| && r == s[..|r|]
    ensures forall k :: |r| <= k < |s| ==> s[k] == ','
    ensures |r| > 0 ==> r[|r| - 1] != ','
  {
    if |s| > 0 && s[|s| - 1] == ',' then RStripCommas(s[..|s| - 1]) else s
  }

  /** `generate_insert_statement`. */
  function GenerateInsertStatement(table: string, cols: seq<Column>): (r: string)
    ensures |r| >= 2 && r[|r| - 1] == ')' && r[|r| - 2] != ','
  {
    var h := Header(table, cols);
    assert h[|h| - 1] == '(';
    assert (h + ValueList(cols))[|h| - 1] == '(';
    var body := RStripCommas(h + ValueList(cols));
    body + ")"
  }

  /** The statement starts with the header: the table, the column names
      joined by commas, then ` VALUES(`. */
  lemma InsertStatementHeader(table: string, cols: seq<Column>)
    ensures var r := GenerateInsertStatement(table, cols);
      |Header(table, cols)| < |r| && r[..|Header(table, cols)|] == Header(table, cols)
  {
    var h := Header(table, cols);
    var s := h + ValueList(cols);
    var body := RStripCommas(s);
    assert h[|h| - 1] == '(';
    assert s[|h| - 1] == '(';
    assert |body| >= |h|;
    assert body[..|h|] == s[..|h|] == h;
    assert GenerateInsertStatement(table, cols) == body + ")";
  }

  lemma {:induction false} ValueListJoin(cols: seq<Column>)
    requires |cols| > 0
    ensures ValueList(cols) == Join(Renders(cols), ",") + ","
  {
    if |cols| == 1 {
      assert ValueList(cols[1..]) == "";
      assert Join(Renders(cols), ",") == Render(cols[0].value);
    } else {
      ValueListJoin(cols[1..]);
      assert Renders(cols)[1..] == Renders(cols[1..]);
      assert Join(Renders(cols), ",") == Render(cols[0].value) + "," + Join(Renders(cols[1..]), ",");
    }
  }

  /** The last value's rendering survives `rstrip(",")`: it is a quoted
      string, or a rendering that is not empty and does not end in a comma. */
  predicate LastValueKept(cols: seq<Column>)
  {
    |cols| == 0 || cols[|cols| - 1].value.Text? ||
    (var r := cols[|cols| - 1].value.rendered; |r| > 0 && r[|r| - 1] != ',')
  }

  /** When the last value survives the strip, the statement is the header,
      the rendered values separated by single commas in column order, and a
      closing parenthesis. */
  lemma InsertStatementValues(table: string, cols: seq<Column>)
    requires LastValueKept(cols)
    ensures GenerateInsertStatement(table, cols) == Header(table, cols) + Join(Renders(cols), ",") + ")"
  {
    var h := Header(table, cols);
    assert h[|h| - 1] == '(';
    if |cols| == 0 {
      assert RStripCommas(h + "") == h;
      assert h + "" == h;
    } else {
      ValueListJoin(cols);
      var joined := Join(Renders(cols), ",");
      var last := Render(cols[|cols| - 1].value);
      JoinEndsWithLast(Renders(cols), ",");
      assert |last| > 0 && last[|last| - 1] != ',';
      var s := h + joined + ",";
      assert h + ValueList(cols) == s;
      assert s[..|s| - 1] == h + joined;
      assert joined[|joined| - 1] == last[|last| - 1];
      assert RStripCommas(h + joined) == h + joined;
    }
  }

  /** A join ends with its last part. */
  lemma {:induction false} JoinEndsWithLast(parts: seq<string>, sep: string)
    requires |parts| > 0
    ensures |Join(parts, sep)| >= |parts[|parts| - 1]|
    ensures Join(parts, sep)[|Join(parts, sep)| - |parts[|parts| - 1]|..] == parts[|parts| - 1]
  {
    if |parts| > 1 {
      JoinEndsWithLast(parts[1..], sep);
      assert parts[1..][|parts[1..]| - 1] == parts[|parts| - 1];
    }
  }
}

=== FILE: strings_main.dfy ===
/** The `mala_strings` program: extract the printable runs of at least six
    bytes from one file, score each run, and print those scoring at least 40
    in file order. */
module StringsMain {
  import opened Results
  import opened Extractor
  import Scorer

  /** Minimum run length `main` asks the extractor for. */
  const MinLength: nat := 6

  /** Runs scoring below this are not printed. */
  const ScoreThreshold: int := 40

  /** One printed record: the run's file offset, its text and its score. */
  datatype ScoredString = ScoredString(position: nat, text: string, score: int)

  /** What a run of the program amounts to: a panic, a usage message, an
      error message, or the printed records in order. */
  datatype Outcome = Panicked | UsageError | Failed(error: IoError) | Printed(lines: seq<ScoredString>)

  function Scored(c: Candidate, combine: Scorer.Features -> int): ScoredString
  {
    ScoredString(c.offset, c.text, Scorer.EnhancedHumanReadable(c.text, combine))
  }

  /** Score every candidate and keep those at or above the threshold, in the
      order they were extracted. */
  function KeepReadable(cs: seq<Candidate>, combine: Scorer.Features -> int): (r: seq<ScoredString>)
    ensures |r| <= |cs|
    ensures forall k :: 0 <= k < |r| ==> r[k].score >= ScoreThreshold
  {
    if |cs| == 0 then []
    else
      var x := Scored(cs[0], combine);
      (if x.score >= ScoreThreshold then [x] else []) + KeepReadable(cs[1..], combine)
  }

  /** A record is kept exactly when it is the scoring of some candidate and
      its score reaches the threshold; a kept text is never empty nor over
      the length cap, because the scorer gives those 0. */
  lemma {:induction false} KeepReadableMembers(cs: seq<Candidate>, combine: Scorer.Features -> int)
    ensures forall x :: x in KeepReadable(cs, combine) <==>
      (exists c :: c in cs && x == Scored(c, combine)) && x.score >= ScoreThreshold
    ensures forall x :: x in KeepReadable(cs, combine) ==>
      0 < Scorer.Utf8Length(x.text) <= Scorer.MaxStringCharLimit
  {
    if |cs| > 0 {
      KeepReadableMembers(cs[1..], combine);
      assert cs == [cs[0]] + cs[1..];
      forall x | (exists c :: c in cs && x == Scored(c, combine)) && x.score >= ScoreThreshold
        ensures x in KeepReadable(cs, combine)
      {
        var c :| c in cs && x == Scored(c, combine);
        if c != cs[0] {
          assert c in cs[1..];
        }
      }
    }
  }

  /** Strictly increasing positions. */
  predicate Ascending(lines: seq<ScoredString>)
  {
    forall a, b :: 0 <= a < b < |lines| ==> lines[a].position < lines[b].position
  }

  /** Every kept record lies after `bound` when every candidate does. */
  lemma {:induction false} KeepReadableAbove(cs: seq<Candidate>, combine: Scorer.Features -> int, bound: int)
    requires forall i :: 0 <= i < |cs| ==> bound < cs[i].offset
    ensures forall k :: 0 <= k < |KeepReadable(cs, combine)| ==> bound < KeepReadable(cs, combine)[k].position
  {
    if |cs| > 0 {
      KeepReadableAbove(cs[1..], combine, bound);
    }
  }

  /** Filtering keeps the extraction order. */
  lemma {:induction false} KeepReadableOrdered(cs: seq<Candidate>, combine: Scorer.Features -> int)
    requires InFileOrder(cs)
    ensures Ascending(KeepReadable(cs, combine))
  {
    if |cs| > 0 {
      var rest := KeepReadable(cs[1..], combine);
      assert InFileOrder(cs[1..]);
      KeepReadableOrdered(cs[1..], combine);
      KeepReadableAbove(cs[1..], combine, cs[0].offset);
      var x := Scored(cs[0], combine);
      if x.score >= ScoreThreshold {
        var all := [x] + rest;
        assert KeepReadable(cs, combine) == all;
        forall a, b | 0 <= a < b < |all|
          ensures all[a].position < all[b].position
        {
          assert all[b] == rest[b - 1];
          if a > 0 {
            assert all[a] == rest[a - 1];
          }
        }
      } else {
        assert KeepReadable(cs, combine) == rest;
      }
    }
  }

  /** The printed records for the file bytes `d` are exactly its qualifying
      maximal runs that score at least the threshold: each record is such a
      run at its true offset with its score, the records come in file order,
      and no such run is missing. */
  ghost predicate ReadableReport(d: seq<byte>, lines: seq<ScoredString>, combine: Scorer.Features -> int)
  {
    (forall x :: x in lines ==>
      Reports(d, Candidate(x.position, x.text), MinLength)
      && x.score == Scorer.EnhancedHumanReadable(x.text, combine)
      && x.score >= ScoreThreshold
      && 0 < |x.text| <= Scorer.MaxStringCharLimit)
    && Ascending(lines)
    && (forall s, e :: MaximalRun(d, s, e) && e - s >= MinLength ==>
          AllPrintable(d[s..e]) &&
          (Scorer.EnhancedHumanReadable(Decode(d[s..e]), combine) >= ScoreThreshold ==>
             ScoredString(s, Decode(d[s..e]), Scorer.EnhancedHumanReadable(Decode(d[s..e]), combine)) in lines))
  }

  lemma KeepRunsReport(d: seq<byte>, combine: Scorer.Features -> int)
    ensures ReadableReport(d, KeepReadable(Runs(d, MinLength), combine), combine)
  {
    var cs := Runs(d, MinLength);
    var lines := KeepReadable(cs, combine);
    RunsSound(d, MinLength);
    RunsOrdered(d, MinLength);
    KeepReadableMembers(cs, combine);
    KeepReadableOrdered(cs, combine);
    forall x | x in lines
      ensures Reports(d, Candidate(x.position, x.text), MinLength)
      ensures 0 < |x.text| <= Scorer.MaxStringCharLimit
    {
      var c :| c in cs && x == Scored(c, combine);
      assert Candidate(x.position, x.text) == c;
      Scorer.Utf8LengthOfAscii(x.text);
    }
    forall s, e | MaximalRun(d, s, e) && e - s >= MinLength
      ensures AllPrintable(d[s..e])
      ensures Scorer.EnhancedHumanReadable(Decode(d[s..e]), combine) >= ScoreThreshold ==>
        ScoredString(s, Decode(d[s..e]), Scorer.EnhancedHumanReadable(Decode(d[s..e]), combine)) in lines
    {
      RunsComplete(d, MinLength, s, e);
      assert Scored(Candidate(s, Decode(d[s..e])), combine)
        == ScoredString(s, Decode(d[s..e]), Scorer.EnhancedHumanReadable(Decode(d[s..e]), combine));
    }
  }

  /** `main`: exactly one argument naming the file, extraction with minimum
      length 6, scoring, the threshold filter, and one record per kept run.
      Opening the file is the parameter `open`; the floating-point part of
      the score is the parameter `combine`. With no arguments at all the
      usage message indexes `args[0]` and panics. Since `extract_strings`
      takes a failed read for end of file, the report covers the bytes
      delivered before the first empty buffer or failed read. */
  method Run(args: seq<string>, open: string -> FileInput, combine: Scorer.Features -> int)
    returns (out: Outcome)
    ensures |args| == 0 ==> out == Panicked
    ensures |args| != 0 && |args| != 2 ==> out == UsageError
    ensures |args| == 2 && open(args[1]).Unopenable? ==> out == Failed(OpenFailed)
    ensures |args| == 2 && open(args[1]).Opened? ==>
      out.Printed? && ReadableReport(Delivered(open(args[1]).answers), out.lines, combine)
  {
    if |args| != 2 {
      if |args| == 0 {
        return Panicked;
      }
      return UsageError;
    }
    var file := open(args[1]);
    var extracted := ExtractStrings(file, MinLength);
    match extracted
    case Err(e) =>
      out := Failed(e);
    case Ok(strings) =>
      KeepRunsReport(Delivered(file.answers), combine);
      out := Printed(KeepReadable(strings, combine));
  }

  /** `main` over the corrected extractor: a failed read is reported as an
      error rather than taken for end of file, and a report is printed only
      for a file read to its end. */
  method RunChecked(args: seq<string>, open: string -> FileInput, combine: Scorer.Features -> int)
    returns (out: Outcome)
    ensures |args| == 0 ==> out == Panicked
    ensures |args| != 0 && |args| != 2 ==> out == UsageError
    ensures |args| == 2 && open(args[1]).Unopenable? ==> out == Failed(OpenFailed)
    ensures |args| == 2 && open(args[1]).Opened? ==>
      (out == Failed(ReadError) <==> StopsOnFailure(open(args[1]).answers))
    ensures |args| == 2 && open(args[1]).Opened? && !StopsOnFailure(open(args[1]).answers) ==>
      out.Printed? && ReadableReport(Delivered(open(args[1]).answers), out.lines, combine)
  {
    if |args| != 2 {
      if |args| == 0 {
        return Panicked;
      }
      return UsageError;
    }
    var file := open(args[1]);
    var extracted := ExtractStringsChecked(file, MinLength);
    match extracted
    case Err(e) =>
      out := Failed(e);
    case Ok(strings) =>
      KeepRunsReport(Delivered(file.answers), combine);
      out := Printed(KeepReadable(strings, combine));
  }
}

=== FILE: text_util.dfy ===
/** Sequence and string helpers shared by the rest of the model: counting,
    summing, flattening, Python-style `str.split` on one separator character
    and its inverse `str.join`, and Python-style clamped slicing. */
module TextUtil {

  /** Number of occurrences of `x` in `s`. */
  function Count<T(==)>(s: seq<T>, x: T): nat
  {
    if |s| == 0 then 0 else (if s[0] == x then 1 else 0) + Count(s[1..], x)
  }

  lemma CountAppend<T>(a: seq<T>, b: seq<T>, x: T)
    ensures Count(a + b, x) == Count(a, x) + Count(b, x)
  {
    if |a| > 0 {
      assert (a + b)[1..] == a[1..] + b;
      CountAppend(a[1..], b, x);
    } else {
      assert a + b == b;
    }
  }

  lemma CountPositiveIsMember<T>(s: seq<T>, x: T)
    ensures Count(s, x) > 0 <==> x in s
  {
    if |s| > 0 {
      CountPositiveIsMember(s[1..], x);
      assert s == [s[0]] + s[1..];
    }
  }

  /** No value occurs twice. */
  predicate Distinct<T(==)>(s: seq<T>)
  {
    forall i, j :: 0 <= i < j < |s| ==> s[i] != s[j]
  }

  function Sum(s: seq<int>): int
  {
    if |s| == 0 then 0 else s[0] + Sum(s[1..])
  }

  lemma SumAppend(a: seq<int>, b: seq<int>)
    ensures Sum(a + b) == Sum(a) + Sum(b)
  {
    if |a| > 0 {
      assert (a + b)[1..] == a[1..] + b;
      SumAppend(a[1..], b);
    } else {
      assert a + b == b;
    }
  }

  /** Concatenation of a sequence of sequences, in order. */
  function Flatten<T>(ss: seq<seq<T>>): seq<T>
  {
    if |ss| == 0 then [] else ss[0] + Flatten(ss[1..])
  }

  lemma FlattenAppend<T>(a: seq<seq<T>>, b: seq<seq<T>>)
    ensures Flatten(a + b) == Flatten(a) + Flatten(b)
  {
    if |a| > 0 {
      assert (a + b)[1..] == a[1..] + b;
      FlattenAppend(a[1..], b);
    } else {
      assert a + b == b;
    }
  }

  /** Python's `sep.join(parts)`. */
  function Join(parts: seq<string>, sep: string): string
  {
    if |parts| == 0 then ""
    else if |parts| == 1 then parts[0]
    else parts[0] + sep + Join(parts[1..], sep)
  }

  /** Python's `s.split(sep)` for a one-character separator: the pieces
      between separators, always at least one (possibly empty) piece. */
  function Split(s: string, sep: char): (pieces: seq<string>)
    ensures |pieces| >= 1
  {
    if |s| == 0 then [""]
    else
      var rest := Split(s[1..], sep);
      if s[0] == sep then [""] + rest
      else [[s[0]] + rest[0]] + rest[1..]
  }

  /** Joining the pieces with the separator gives back the split string, and
      no piece contains the separator. */
  lemma {:induction false} JoinSplit(s: string, sep: char)
    ensures Join(Split(s, sep), [sep]) == s
    ensures forall k :: 0 <= k < |Split(s, sep)| ==> sep !in Split(s, sep)[k]
    ensures |Split(s, sep)| == Count(s, sep) + 1
  {
    if |s| > 0 {
      var rest := Split(s[1..], sep);
      JoinSplit(s[1..], sep);
      if s[0] == sep {
        assert Split(s, sep) == [""] + rest;
        assert ([""] + rest)[1..] == rest;
        assert s == [s[0]] + s[1..];
      } else {
        var pieces := Split(s, sep);
        assert pieces == [[s[0]] + rest[0]] + rest[1..];
        assert pieces[1..] == rest[1..];
        if |rest| == 1 {
          assert Join(rest, [sep]) == rest[0];
        } else {
          assert Join(rest, [sep]) == rest[0] + [sep] + Join(rest[1..], [sep]);
        }
        assert s == [s[0]] + s[1..];
        forall k | 0 <= k < |pieces|
          ensures sep !in pieces[k]
        {
          if k == 0 {
            assert pieces[0] == [s[0]] + rest[0];
          } else {
            assert pieces[k] == rest[k];
          }
        }
      }
    }
  }

  /** Splitting a join of separator-free pieces gives back the pieces. */
  lemma {:induction false} SplitJoin(parts: seq<string>, sep: char)
    requires |parts| >= 1
    requires forall k :: 0 <= k < |parts| ==> sep !in parts[k]
    ensures Split(Join(parts, [sep]), sep) == parts
  {
    if |parts| == 1 {
      SplitPlain(parts[0], [], sep);
      assert parts[0] + [] == parts[0];
    } else {
      SplitJoin(parts[1..], sep);
      var tail := Join(parts[1..], [sep]);
      assert Join(parts, [sep]) == parts[0] + ([sep] + tail);
      SplitPlain(parts[0], [sep] + tail, sep);
      assert ([sep] + tail)[1..] == tail;
      assert Split([sep] + tail, sep) == [""] + parts[1..];
      assert parts[0] + "" == parts[0];
      assert parts == [parts[0]] + parts[1..];
    }
  }

  /** A separator-free prefix glues onto the first piece of what follows. */
  lemma {:induction false} SplitPlain(a: string, b: string, sep: char)
    requires sep !in a
    ensures Split(a + b, sep) == [a + Split(b, sep)[0]] + Split(b, sep)[1..]
  {
    if |a| > 0 {
      assert (a + b)[1..] == a[1..] + b;
      assert (a + b)[0] == a[0];
      SplitPlain(a[1..], b, sep);
      var pieces := Split(b, sep);
      var rest := Split(a[1..] + b, sep);
      assert rest == [a[1..] + pieces[0]] + pieces[1..];
      assert rest[0] == a[1..] + pieces[0] && rest[1..] == pieces[1..];
      assert [a[0]] + (a[1..] + pieces[0]) == a + pieces[0];
    } else {
      assert a + b == b;
      var pieces := Split(b, sep);
      assert pieces == [pieces[0]] + pieces[1..];
      assert a + pieces[0] == pieces[0];
    }
  }

  /** Python's `s[lo:hi]` for non-negative bounds: both ends are clamped to
      the length. */
  function Slice<T>(s: seq<T>, lo: nat, hi: nat): (r: seq<T>)
    ensures |r| <= |s|
  {
    var a := if lo < |s| then lo else |s|;
    var b := if hi < |s| then hi else |s|;
    if a <= b then s[a..b] else []
  }
}

/** Success-or-error outcome used wherever the source raises or returns an
    error instead of a value. */
module Results {

  datatype Result<T, E> = Ok(value: T) | Err(error: E)

  datatype Option<T> = None | Some(value: T)
}

=== FILE: tool_runner.dfy ===
/** The pure parts of the Python tool runner: splitting toolchain command
    lines into a tool and its arguments, registering them, parsing the
    output of `strings -t` into string/score/address lists, and the two
    readability scores. */
module ToolRunner {
  import opened TextUtil
  import opened Results
  import Scorer

  /** `SHR_CUTOFF`: a readability score must exceed this to be kept. */
  const ShrCutoff: int := 40

  /** `MAX_STRING_CHAR_LIMIT` of the Python configuration, in characters. */
  const MaxStringCharLimit: nat := 2600

  // ---------------------------------------------------------------------
  // Toolchain command lines.
  // ---------------------------------------------------------------------

  /** A tool and the arguments it is run with. */
  datatype ToolConfig = ToolConfig(tool: string, args: seq<string>)

  /** `parse_tool_cmdline`: the comma-separated fields of the command line,
      the first naming the tool. */
  function ParseToolCmdline(cmdline: string): ToolConfig
  {
    if ',' in cmdline then
      var fields := Split(cmdline, ',');
      ToolConfig(fields[0], fields[1..])
    else
      ToolConfig(cmdline, [])
  }

  /** Joining the tool and its arguments with commas gives back the command
      line; no field contains a comma; there is one argument per comma, so a
      command line without a comma is all tool and no arguments. */
  lemma ParseToolCmdlineJoin(cmdline: string)
    ensures Join([ParseToolCmdline(cmdline).tool] + ParseToolCmdline(cmdline).args, ",") == cmdline
    ensures ',' !in ParseToolCmdline(cmdline).tool
    ensures forall k :: 0 <= k < |ParseToolCmdline(cmdline).args| ==> ',' !in ParseToolCmdline(cmdline).args[k]
    ensures |ParseToolCmdline(cmdline).args| == Count(cmdline, ',')
    ensures ',' !in cmdline ==> ParseToolCmdline(cmdline) == ToolConfig(cmdline, [])
  {
    var fields := Split(cmdline, ',');
    JoinSplit(cmdline, ',');
    assert [fields[0]] + fields[1..] == fields;
    CountPositiveIsMember(cmdline, ',');
    if ',' !in cmdline {
      assert Join([cmdline], ",") == cmdline;
    }
  }

  /** Conversely, comma-free fields joined with commas parse back into the
      same tool and arguments. */
  lemma ParseJoinedCmdline(config: ToolConfig)
    requires ',' !in config.tool
    requires forall k :: 0 <= k < |config.args| ==> ',' !in config.args[k]
    ensures ParseToolCmdline(Join([config.tool] + config.args, ",")) == config
  {
    var fields := [config.tool] + config.args;
    var line := Join(fields, ",");
    forall k | 0 <= k < |fields|
      ensures ',' !in fields[k]
    {
      if k > 0 {
        assert fields[k] == config.args[k - 1];
      }
    }
    SplitJoin(fields, ',');
    JoinSplit(line, ',');
    CountPositiveIsMember(line, ',');
    assert fields[1..] == config.args;
    if |config.args| == 0 {
      assert line == config.tool;
    }
  }

  /** The `tool_configs` table. */
  type ToolConfigs = map<string, ToolConfig>

  /** `parse_tool_cmdline` on the runner: parses the command line and records
      it under the command line itself unless that key is already present. */
  function RegisterCmdline(configs: ToolConfigs, cmdline: string): (r: (ToolConfigs, ToolConfig))
    ensures r.0.Keys == configs.Keys + {cmdline}
    ensures forall k :: k in configs ==> r.0[k] == configs[k]
    ensures r.1 == ParseToolCmdline(cmdline)
    ensures cmdline !in configs ==> r.0[cmdline] == r.1
  {
    var parsed := ParseToolCmdline(cmdline);
    if cmdline !in configs then (configs[cmdline := parsed], parsed) else (configs, parsed)
  }

  /** `parse_all_tool_cmdlines`: register every toolchain entry in order. */
  function ParseAllToolCmdlines(configs: ToolConfigs, toolchain: seq<string>): (r: ToolConfigs)
    ensures configs.Keys <= r.Keys
    decreases |toolchain|
  {
    if |toolchain| == 0 then configs
    else ParseAllToolCmdlines(RegisterCmdline(configs, toolchain[0]).0, toolchain[1..])
  }

  /** Registering a toolchain adds exactly its entries as keys, never
      overwrites an entry that was already there, and files each new entry
      under its own parse. */
  lemma {:induction false} ParseAllToolCmdlinesKeeps(configs: ToolConfigs, toolchain: seq<string>)
    ensures ParseAllToolCmdlines(configs, toolchain).Keys == configs.Keys + set k | k in toolchain
    ensures forall k :: k in configs ==> ParseAllToolCmdlines(configs, toolchain)[k] == configs[k]
    ensures forall k :: k in ParseAllToolCmdlines(configs, toolchain) && k !in configs ==>
      ParseAllToolCmdlines(configs, toolchain)[k] == ParseToolCmdline(k)
    decreases |toolchain|
  {
    if |toolchain| > 0 {
      var next := RegisterCmdline(configs, toolchain[0]).0;
      var result := ParseAllToolCmdlines(next, toolchain[1..]);
      assert result == ParseAllToolCmdlines(configs, toolchain);
      ParseAllToolCmdlinesKeeps(next, toolchain[1..]);
      assert (set k | k in toolchain) == {toolchain[0]} + (set k | k in toolchain[1..]) by {
        assert toolchain == [toolchain[0]] + toolchain[1..];
      }
      forall k | k in configs
        ensures result[k] == configs[k]
      {
        assert k in next && next[k] == configs[k];
      }
      forall k | k in result && k !in configs
        ensures result[k] == ParseToolCmdline(k)
      {
        if k in next {
          assert k == toolchain[0] && next[k] == ParseToolCmdline(k);
        }
      }
    }
  }

  /** The table a runner starts with: every toolchain entry under its parse. */
  lemma ToolConfigsOfToolchain(toolchain: seq<string>)
    ensures ParseAllToolCmdlines(map[], toolchain).Keys == set k | k in toolchain
    ensures forall k :: k in ParseAllToolCmdlines(map[], toolchain) ==>
      ParseAllToolCmdlines(map[], toolchain)[k] == ParseToolCmdline(k)
  {
    ParseAllToolCmdlinesKeeps(map[], toolchain);
  }

  // ---------------------------------------------------------------------
  // Python `str.strip()`.
  // ---------------------------------------------------------------------

  /** The characters for which Python's `str.isspace` holds. */
  predicate IsSpace(c: char)
  {
    var n := c as int;
    (9 <= n <= 13) || (28 <= n <= 32) || n == 0x85 || n == 0xA0 || n == 0x1680
    || (0x2000 <= n <= 0x200A) || n == 0x2028 || n == 0x2029 || n == 0x202F
    || n == 0x205F || n == 0x3000
  }

  /** Number of leading whitespace characters. */
  function LeadingSpaces(s: string): (n: nat)
    ensures n <= |s|
    ensures forall k :: 0 <= k < n ==> IsSpace(s[k])
    ensures n < |s| ==> !IsSpace(s[n])
  {
    if |s| > 0 && IsSpace(s[0]) then 1 + LeadingSpaces(s[1..]) else 0
  }

  /** Length of `s` without its trailing whitespace. */
  function WithoutTrailingSpaces(s: string): (n: nat)
    ensures n <= |s|
    ensures forall k :: n <= k < |s| ==> IsSpace(s[k])
    ensures n > 0 ==> !IsSpace(s[n - 1])
  {
    if |s| > 0 && IsSpace(s[|s| - 1]) then WithoutTrailingSpaces(s[..|s| - 1]) else |s|
  }

  /** `s.strip()`: the text between the leading and the trailing whitespace,
      which neither starts nor ends with whitespace. */
  function Strip(s: string): (r: string)
    ensures LeadingSpaces(s) + |r| <= |s|
    ensures |r| > 0 ==> !IsSpace(r[0]) && !IsSpace(r[|r| - 1])
    ensures r == s[LeadingSpaces(s)..LeadingSpaces(s) + |r|]
    ensures forall k :: LeadingSpaces(s) + |r| <= k < |s| ==> IsSpace(s[k])
  {
    var rest := s[LeadingSpaces(s)..];
    rest[..WithoutTrailingSpaces(rest)]
  }

  // ---------------------------------------------------------------------
  // Readability scores.
  // ---------------------------------------------------------------------

  /** The exceptions `enhanced_human_readable` can raise: a division by the
      length of an empty text, and `int()` of the NaN that the cosine
      similarity gives when the text vector is all zeros. */
  datatype ScoreError = ZeroDivision | NotANumber

  /** Python's `int()` on a float: truncation toward zero. */
  function Truncate(x: real): (n: int)
    ensures 0.0 <= x ==> n as real <= x < n as real + 1.0
    ensures x < 0.0 ==> n as real - 1.0 < x <= n as real
  {
    if x >= 0.0 then x.Floor else -((-x).Floor)
  }

  /** The integer inputs of the Python `enhanced_human_readable`, which
      counts characters rather than bytes. */
  function PyFeatures(text: string): Scorer.Features
  {
    Scorer.Features(Scorer.TextVector(text), Scorer.RankVector(), Scorer.DistinctCount(text), |text|)
  }

  /** `enhanced_human_readable` in the Python tool runner. The floating-point
      combination of the features is the parameter `combine`. Over-long text
      is `(False, 0)`; empty text divides by zero; text with no alphabet
      character has an all-zero text vector, so the cosine similarity is
      0/0 = NaN and `int()` of the combined score raises. */
  function PyEnhancedHumanReadable(text: string, combine: Scorer.Features -> real): (r: Result<(bool, int), ScoreError>)
    ensures |text| > MaxStringCharLimit ==> r == Ok((false, 0))
    ensures r == Err(ZeroDivision) <==> |text| == 0
    ensures r == Err(NotANumber) <==> 0 < |text| <= MaxStringCharLimit && Scorer.AlphabetFree(text)
    ensures r.Ok? ==> |text| > MaxStringCharLimit || !Scorer.AlphabetFree(text)
    ensures r.Ok? && r.value.0 ==> r.value.1 >= ShrCutoff
  {
    Scorer.ZeroVectorIffAlphabetFree(text);
    if |text| > MaxStringCharLimit then Ok((false, 0))
    else if |text| == 0 then Err(ZeroDivision)
    else if Sum(Scorer.TextVector(text)) == 0 then Err(NotANumber)
    else
      var combined := combine(PyFeatures(text));
      Ok((combined > ShrCutoff as real, Truncate(combined)))
  }

  /** The `emergent` literal of `simple_human_readable`: the alphabet with
      eight extra spaces after the backtick. */
  const SimpleEmergent: string := Scorer.Emergent[..88] + "        " + Scorer.Emergent[88..]

  /** Weight of one character in `simple_human_readable`: `len(emergent)`
      minus the character's first index in the literal, or 0 for a character
      not in it. */
  function SimpleWeight(c: char): (w: nat)
    ensures w <= |SimpleEmergent|
  {
    var rank := Scorer.EmergentRank(c);
    if rank == 0 then 0
    else if rank <= 88 then 104 - rank
    else 96 - rank
  }

  /** The weight is `len(emergent) - emergent.index(c)` when the character
      occurs in the literal, and 0 when it does not. */
  lemma SimpleWeightIsFirstIndex(c: char)
    ensures |SimpleEmergent| == 103
    ensures SimpleWeight(c) > 0 <==> c in SimpleEmergent
    ensures SimpleWeight(c) > 0 ==>
      var i := |SimpleEmergent| - SimpleWeight(c);
      SimpleEmergent[i] == c && c !in SimpleEmergent[..i]
  {
    var e := Scorer.Emergent;
    Scorer.EmergentRankIsPosition();
    Scorer.EmergentDistinct();
    var rank := Scorer.EmergentRank(c);
    if rank > 0 {
      var k :| 0 <= k < 95 && e[k] == c;
      assert rank == k + 1;
    }
    assert e[1] == ' ';
    SplicedFirstIndex(e, SimpleEmergent, c, rank);
  }

  /** First occurrences in an alphabet of distinct characters whose second
      entry is the space, after eight more spaces are spliced in at index 88:
      an entry at alphabet index `rank - 1` keeps its index if it comes before
      the splice and moves up by eight otherwise. */
  lemma SplicedFirstIndex(e: seq<char>, lit: seq<char>, c: char, rank: nat)
    requires |e| == 95 && Distinct(e) && e[1] == ' '
    requires lit == e[..88] + "        " + e[88..]
    requires rank <= 95
    requires rank == 0 ==> c !in e
    requires rank > 0 ==> e[rank - 1] == c
    ensures |lit| == 103
    ensures rank > 0 <==> c in lit
    ensures rank > 0 ==>
      var i := if rank <= 88 then rank - 1 else rank + 7;
      lit[i] == c && c !in lit[..i]
  {
    assert forall j :: 0 <= j < 88 ==> lit[j] == e[j];
    assert forall j :: 88 <= j < 96 ==> lit[j] == e[1];
    assert forall j :: 96 <= j < 103 ==> lit[j] == e[j - 8];
    if rank == 0 {
      forall j | 0 <= j < 103
        ensures lit[j] != c
      {
        if j < 88 {
          assert lit[j] in e;
        } else if j < 96 {
          assert lit[j] in e;
        } else {
          assert lit[j] in e;
        }
      }
    } else {
      var i := if rank <= 88 then rank - 1 else rank + 7;
      assert lit[i] == c;
      forall j | 0 <= j < i
        ensures lit[..i][j] != c
      {
        if j < 88 {
          assert j != rank - 1;
        } else if j < 96 {
          assert 1 != rank - 1;
        } else {
          assert j - 8 < rank - 1;
        }
      }
    }
  }

  /** The weighted sum of `simple_human_readable`. */
  function SimpleScore(text: string): nat
  {
    if |text| == 0 then 0 else SimpleWeight(text[0]) + SimpleScore(text[1..])
  }

  lemma {:induction false} SimpleScoreBound(text: string)
    ensures SimpleScore(text) <= 103 * |text|
  {
    if |text| > 0 {
      SimpleScoreBound(text[1..]);
      SimpleWeightIsFirstIndex(text[0]);
    }
  }

  /** `simple_human_readable`. The float division followed by `int()` is the
      floor of the weighted sum over the length: both are non-negative
      integers far below 2^53, so the division loses no whole units. */
  function SimpleHumanReadable(text: string): (r: (bool, int))
    ensures |text| > MaxStringCharLimit ==> r == (false, 0)
    ensures r.0 <==> r.1 > ShrCutoff
    ensures !r.0 ==> r.1 == 0
    ensures r.0 ==>
      0 < |text| <= MaxStringCharLimit && r.1 * |text| <= SimpleScore(text) < (r.1 + 1) * |text|
    ensures 0 < |text| <= MaxStringCharLimit && SimpleScore(text) / |text| > ShrCutoff ==> r.0
  {
    if |text| > MaxStringCharLimit then (false, 0)
    else
      var score := SimpleScore(text);
      if score == 0 then (false, 0)
      else
        var scoreInt := score / |text|;
        FloorDivision(score, |text|);
        if scoreInt > ShrCutoff then (true, scoreInt) else (false, 0)
  }

  /** Integer division of a non-negative number by a positive one is the
      floor of the quotient. */
  lemma FloorDivision(a: int, b: int)
    requires a >= 0 && b > 0
    ensures (a / b) * b <= a < (a / b + 1) * b
  {
    var q := a / b;
    assert a == q * b + a % b;
    assert (q + 1) * b == q * b + b;
  }

  /** A product bound by a positive factor bounds the other factor. */
  lemma CancelFactor(q: int, b: int, c: int)
    requires b > 0 && q * b <= c * b
    ensures q <= c
  {
    assert (q - c) * b <= 0;
  }

  /** A kept score is at most the largest weight, 103. */
  lemma SimpleHumanReadableBound(text: string)
    ensures SimpleHumanReadable(text).1 <= 103
  {
    SimpleScoreBound(text);
    var r := SimpleHumanReadable(text);
    if r.0 {
      CancelFactor(r.1, |text|, 103);
    }
  }

  // ---------------------------------------------------------------------
  // Parsing `strings -t` output.
  // ---------------------------------------------------------------------

  /** One kept line: the string, its score and its padded address. */
  datatype StringRecord = StringRecord(text: string, score: int, address: string)

  /** The three lists `parse_strings_data` returns. */
  datatype Parsed = Parsed(strings: seq<string>, scores: seq<int>, addresses: seq<string>)

  /** Index of the first occurrence of `c`. */
  function FirstIndex(s: string, c: char): (i: nat)
    requires c in s
    ensures i < |s| && s[i] == c && c !in s[..i]
  {
    if s[0] == c then 0
    else
      assert c in s[1..] by { assert s == [s[0]] + s[1..]; }
      var j := FirstIndex(s[1..], c);
      assert s[..j + 1] == [s[0]] + s[1..][..j];
      1 + j
  }

  /** An address of odd length gets one leading '0'. */
  function PadAddress(a: string): (r: string)
    ensures |r| % 2 == 0
    ensures |a| <= |r| <= |a| + 1 && r[|r| - |a|..] == a
    ensures |r| == |a| + 1 ==> r[0] == '0'
  {
    if |a| % 2 == 0 then a else "0" + a
  }

  /** The outcome for one line of `parse_strings_data`: nothing for a line
      with no space once stripped, or whose text is not readable (an
      exception from the scorer also skips the line), otherwise the record
      of the text after the first space. */
  function ParseStringsLine(line: string, combine: Scorer.Features -> real): (r: Option<StringRecord>)
    ensures r.Some? ==> r.value.score >= ShrCutoff && |r.value.address| % 2 == 0
  {
    var s := Strip(line);
    if ' ' !in s then None
    else
      var i := FirstIndex(s, ' ');
      match PyEnhancedHumanReadable(s[i + 1..], combine)
      case Err(_) => None
      case Ok(flagged) => if flagged.0 then Some(StringRecord(s[i + 1..], flagged.1, PadAddress(s[..i]))) else None
  }

  /** A line is kept exactly when its stripped form has a space and the text
      after the first space is scored without an exception and flagged
      readable. That text is never empty, so the scorer raises on it only when
      it has no alphabet character (the NaN case), and such a line is skipped.
      The kept record's address is the part before the space, padded to even
      length, and its score passed the cutoff. */
  lemma ParseStringsLineMeaning(line: string, combine: Scorer.Features -> real)
    ensures ' ' in Strip(line) ==>
      var s := Strip(line);
      var i := FirstIndex(s, ' ');
      var t := s[i + 1..];
      s == s[..i] + " " + t && ' ' !in s[..i] && |t| > 0
      && (PyEnhancedHumanReadable(t, combine).Err? <==> |t| <= MaxStringCharLimit && Scorer.AlphabetFree(t))
      && (Scorer.AlphabetFree(t) ==> ParseStringsLine(line, combine) == None)
      && (ParseStringsLine(line, combine).Some? <==>
            PyEnhancedHumanReadable(t, combine).Ok? && PyEnhancedHumanReadable(t, combine).value.0)
      && (ParseStringsLine(line, combine).Some? ==>
            ParseStringsLine(line, combine).value.text == t
            && ParseStringsLine(line, combine).value.address == PadAddress(s[..i])
            && ParseStringsLine(line, combine).value.score == PyEnhancedHumanReadable(t, combine).value.1)
    ensures ' ' !in Strip(line) ==> ParseStringsLine(line, combine) == None
    ensures ParseStringsLine(line, combine).Some? ==>
      ParseStringsLine(line, combine).value.score >= ShrCutoff
      && |ParseStringsLine(line, combine).value.address| % 2 == 0
  {
    var s := Strip(line);
    if ' ' in s {
      var i := FirstIndex(s, ' ');
      assert s == s[..i] + [s[i]] + s[i + 1..];
      assert IsSpace(s[i]);
      assert i < |s| - 1;
    }
  }

  function NoneParsed(): Parsed
  {
    Parsed([], [], [])
  }

  /** Put one line's outcome in front of the lists for the lines after it. */
  function Prepend(o: Option<StringRecord>, p: Parsed): Parsed
  {
    match o
    case None => p
    case Some(rec) => Parsed([rec.text] + p.strings, [rec.score] + p.scores, [rec.address] + p.addresses)
  }

  /** The lists are aligned, every address has even length and every score
      passed the cutoff. */
  predicate WellFormed(p: Parsed)
  {
    |p.strings| == |p.scores| == |p.addresses|
    && (forall k :: 0 <= k < |p.addresses| ==> |p.addresses[k]| % 2 == 0)
    && (forall k :: 0 <= k < |p.scores| ==> p.scores[k] >= ShrCutoff)
  }

  /** Putting a kept record in front keeps the lists well formed. */
  lemma PrependWellFormed(o: Option<StringRecord>, p: Parsed)
    requires o.Some? ==> o.value.score >= ShrCutoff && |o.value.address| % 2 == 0
    requires WellFormed(p)
    ensures WellFormed(Prepend(o, p))
    ensures |Prepend(o, p).strings| <= |p.strings| + 1
  {
    if o.Some? {
      var r := Prepend(o, p);
      assert forall k :: 1 <= k < |r.addresses| ==> r.addresses[k] == p.addresses[k - 1];
      assert forall k :: 1 <= k < |r.scores| ==> r.scores[k] == p.scores[k - 1];
    }
  }

  /** `parse_strings_data` over a list of lines. */
  function ParseStringsData(lines: seq<string>, combine: Scorer.Features -> real): (r: Parsed)
    ensures |r.strings| == |r.scores| == |r.addresses| <= |lines|
    ensures forall k :: 0 <= k < |r.addresses| ==> |r.addresses[k]| % 2 == 0
    ensures forall k :: 0 <= k < |r.scores| ==> r.scores[k] >= ShrCutoff
  {
    if |lines| == 0 then NoneParsed()
    else
      var rest := ParseStringsData(lines[1..], combine);
      var o := ParseStringsLine(lines[0], combine);
      PrependWellFormed(o, rest);
      Prepend(o, rest)
  }

  /** The lists of one result followed by those of another. */
  function Concat(a: Parsed, b: Parsed): Parsed
  {
    Parsed(a.strings + b.strings, a.scores + b.scores, a.addresses + b.addresses)
  }

  lemma PrependConcat(o: Option<StringRecord>, a: Parsed, b: Parsed)
    ensures Prepend(o, Concat(a, b)) == Concat(Prepend(o, a), b)
  {
    if o.Some? {
      var rec := o.value;
      assert [rec.text] + (a.strings + b.strings) == ([rec.text] + a.strings) + b.strings;
      assert [rec.score] + (a.scores + b.scores) == ([rec.score] + a.scores) + b.scores;
      assert [rec.address] + (a.addresses + b.addresses) == ([rec.address] + a.addresses) + b.addresses;
    }
  }

  /** Parsing is line by line: the result for two blocks of lines is the
      result for the first followed by the result for the second, so the
      kept lines stay in input order. */
  lemma {:induction false} ParseStringsDataAppend(a: seq<string>, b: seq<string>, combine: Scorer.Features -> real)
    ensures ParseStringsData(a + b, combine) == Concat(ParseStringsData(a, combine), ParseStringsData(b, combine))
  {
    if |a| == 0 {
      assert a + b == b;
      var pb := ParseStringsData(b, combine);
      assert Concat(NoneParsed(), pb) == pb;
    } else {
      assert (a + b)[0] == a[0];
      assert (a + b)[1..] == a[1..] + b;
      ParseStringsDataAppend(a[1..], b, combine);
      PrependConcat(ParseStringsLine(a[0], combine), ParseStringsData(a[1..], combine), ParseStringsData(b, combine));
    }
  }

  /** A single line contributes its record or nothing. */
  lemma ParseStringsDataSingle(line: string, combine: Scorer.Features -> real)
    ensures ParseStringsLine(line, combine).None? ==> ParseStringsData([line], combine) == NoneParsed()
    ensures ParseStringsLine(line, combine).Some? ==>
      var rec := ParseStringsLine(line, combine).value;
      ParseStringsData([line], combine) == Parsed([rec.text], [rec.score], [rec.address])
  {
    assert [line][1..] == [];
  }

  /** The records of a result, one per index of its equal-length lists. */
  function Records(p: Parsed): seq<StringRecord>
    requires |p.strings| == |p.scores| == |p.addresses|
  {
    seq(|p.strings|, k requires 0 <= k < |p.strings| => StringRecord(p.strings[k], p.scores[k], p.addresses[k]))
  }

  lemma RecordsPrepend(o: Option<StringRecord>, p: Parsed)
    requires |p.strings| == |p.scores| == |p.addresses|
    ensures |Prepend(o, p).strings| == |Prepend(o, p).scores| == |Prepend(o, p).addresses|
    ensures Records(Prepend(o, p)) == (if o.Some? then [o.value] else []) + Records(p)
  {
  }

  /** The lines of `lines` whose outcome is `rec`. */
  predicate KeptAt(lines: seq<string>, combine: Scorer.Features -> real, rec: StringRecord, i: int)
  {
    0 <= i < |lines| && ParseStringsLine(lines[i], combine) == Some(rec)
  }

  /** A record is kept from a non-empty list of lines exactly when it is
      kept from the first line or from the rest. */
  lemma KeptAtShift(lines: seq<string>, combine: Scorer.Features -> real, rec: StringRecord)
    requires |lines| > 0
    ensures (exists i :: KeptAt(lines, combine, rec, i)) <==>
      ParseStringsLine(lines[0], combine) == Some(rec) || exists i :: KeptAt(lines[1..], combine, rec, i)
  {
    if exists i :: KeptAt(lines, combine, rec, i) {
      var i :| KeptAt(lines, combine, rec, i);
      if i > 0 {
        assert KeptAt(lines[1..], combine, rec, i - 1);
      }
    }
    if exists i :: KeptAt(lines[1..], combine, rec, i) {
      var i :| KeptAt(lines[1..], combine, rec, i);
      assert KeptAt(lines, combine, rec, i + 1);
    }
    if ParseStringsLine(lines[0], combine) == Some(rec) {
      assert KeptAt(lines, combine, rec, 0);
    }
  }

  /** The records returned are exactly the records of the kept lines. */
  lemma {:induction false} ParseStringsDataRecords(lines: seq<string>, combine: Scorer.Features -> real)
    ensures forall rec :: rec in Records(ParseStringsData(lines, combine)) <==>
      exists i :: KeptAt(lines, combine, rec, i)
  {
    if |lines| > 0 {
      var o := ParseStringsLine(lines[0], combine);
      var rest := ParseStringsData(lines[1..], combine);
      assert ParseStringsData(lines, combine) == Prepend(o, rest);
      ParseStringsDataRecords(lines[1..], combine);
      RecordsPrepend(o, rest);
      forall rec
        ensures rec in Records(ParseStringsData(lines, combine)) <==> exists i :: KeptAt(lines, combine, rec, i)
      {
        KeptAtShift(lines, combine, rec);
      }
    }
  }

  // ---------------------------------------------------------------------
  // What `parse_strings_data` is given.
  // ---------------------------------------------------------------------

  /** As written, `execute_tool` returns the decoded standard output as one
      string, and `parse_strings_data` iterates over it, so every "line" it
      sees is a single character. */
  function ParseStringsDataAsWritten(stdout: string, combine: Scorer.Features -> real): Parsed
  {
    ParseStringsData(seq(|stdout|, k requires 0 <= k < |stdout| => [stdout[k]]), combine)
  }

  /** A single character stripped never contains a space, so the as-written
      parse keeps nothing, whatever the tool printed. */
  lemma {:induction false} StdoutAsCharactersKeepsNothing(stdout: string, combine: Scorer.Features -> real)
    ensures ParseStringsDataAsWritten(stdout, combine) == NoneParsed()
  {
    var lines := seq(|stdout|, k requires 0 <= k < |stdout| => [stdout[k]]);
    if |stdout| > 0 {
      StdoutAsCharactersKeepsNothing(stdout[1..], combine);
      assert lines[1..] == seq(|stdout[1..]|, k requires 0 <= k < |stdout[1..]| => [stdout[1..][k]]);
      var s := Strip(lines[0]);
      assert |s| <= 1;
      if ' ' in s {
        assert s[0] == ' ' && IsSpace(' ');
      }
    }
  }

  /** The evidently intended parse: standard output cut into lines. */
  function ParseStringsOutput(stdout: string, combine: Scorer.Features -> real): Parsed
  {
    ParseStringsData(Split(stdout, '\n'), combine)
  }

  /** Output printed as newline-separated lines is parsed line by line. */
  lemma ParseStringsOutputOfLines(lines: seq<string>, combine: Scorer.Features -> real)
    requires |lines| >= 1
    requires forall k :: 0 <= k < |lines| ==> '\n' !in lines[k]
    ensures ParseStringsOutput(Join(lines, "\n"), combine) == ParseStringsData(lines, combine)
  {
    SplitJoin(lines, '\n');
  }

  /** A score function that rates every text 100. */
  function RateAll(f: Scorer.Features): real
  {
    100.0
  }

  lemma StripUntouched(s: string)
    requires |s| > 0 && !IsSpace(s[0]) && !IsSpace(s[|s| - 1])
    ensures Strip(s) == s
  {
    assert LeadingSpaces(s) == 0;
    assert s[0..] == s;
    assert WithoutTrailingSpaces(s) == |s|;
  }

  lemma FirstIndexAt(s: string, c: char, n: nat)
    requires n < |s| && s[n] == c && c !in s[..n]
    ensures FirstIndex(s, c) == n
  {
  }

  /** A line "<address> <text>" with no surrounding whitespace is kept when
      every text rates 100. */
  lemma AddressLineKept(address: string, text: string)
    requires 0 < |address| && !IsSpace(address[0]) && ' ' !in address
    requires 0 < |text| <= MaxStringCharLimit && !IsSpace(text[|text| - 1])
    requires Scorer.IsPrintableChar(text[|text| - 1])
    ensures ParseStringsLine(address + " " + text, RateAll) == Some(StringRecord(text, 100, PadAddress(address)))
  {
    RatedHundred(text);
    AddressLineSplits(address, text);
  }

  /** A line "<address> <text>" with no surrounding whitespace strips to
      itself and splits at the space after the address. */
  lemma AddressLineSplits(address: string, text: string)
    requires 0 < |address| && !IsSpace(address[0]) && ' ' !in address
    requires 0 < |text| && !IsSpace(text[|text| - 1])
    ensures var line := address + " " + text;
      Strip(line) == line && ' ' in line && FirstIndex(line, ' ') == |address|
      && line[..|address|] == address && line[|address| + 1..] == text
  {
    var line := address + " " + text;
    var n := |address|;
    assert line[0] == address[0] && line[|line| - 1] == text[|text| - 1];
    StripUntouched(line);
    assert line[n] == ' ' && line[..n] == address && line[n + 1..] == text;
    FirstIndexAt(line, ' ', n);
  }

  /** A text within the cap that ends in a printable character is scored
      without an exception, so rating every text 100 flags it with 100. */
  lemma RatedHundred(text: string)
    requires 0 < |text| <= MaxStringCharLimit && Scorer.IsPrintableChar(text[|text| - 1])
    ensures PyEnhancedHumanReadable(text, RateAll) == Ok((true, 100))
  {
    assert !Scorer.AlphabetFree(text) by {
      var last := text[|text| - 1..];
      assert last[0] == text[|text| - 1];
      Scorer.PrintableInEmergent(last);
    }
    assert Truncate(100.0) == 100;
  }

  /** One line of `strings -t` output, say "1f0 kernel32.dll": as written it
      is lost, parsed as a line it is kept with its address padded to even
      length ("01f0"). */
  lemma StringsOutputIsLost(address: string, text: string)
    requires 0 < |address| && !IsSpace(address[0]) && ' ' !in address && '\n' !in address
    requires 0 < |text| <= MaxStringCharLimit && !IsSpace(text[|text| - 1]) && '\n' !in text
    requires Scorer.IsPrintableChar(text[|text| - 1])
    ensures ParseStringsDataAsWritten(address + " " + text + "\n", RateAll) == NoneParsed()
    ensures ParseStringsOutput(address + " " + text + "\n", RateAll)
      == Parsed([text], [100], [PadAddress(address)])
  {
    StdoutAsCharactersKeepsNothing(address + " " + text + "\n", RateAll);
    SingleLineKept(address, text);
  }

  /** Split into lines, one `strings -t x` line and the empty piece after
      its newline give exactly that line's record. */
  lemma SingleLineKept(address: string, text: string)
    requires 0 < |address| && !IsSpace(address[0]) && ' ' !in address && '\n' !in address
    requires 0 < |text| <= MaxStringCharLimit && !IsSpace(text[|text| - 1]) && '\n' !in text
    requires Scorer.IsPrintableChar(text[|text| - 1])
    ensures ParseStringsOutput(address + " " + text + "\n", RateAll)
      == Parsed([text], [100], [PadAddress(address)])
  {
    var line := address + " " + text;
    assert '\n' !in line by {
      assert forall k :: 0 <= k < |line| ==> line[k] == (if k < |address| then address[k] else if k == |address| then ' ' else text[k - |address| - 1]);
    }
    ParseStringsOutputOfLines([line, ""], RateAll);
    assert Join([line, ""], "\n") == line + "\n";
    assert ParseStringsData([line] + [""], RateAll) == Parsed([text], [100], [PadAddress(address)]) by {
      AddressLineKept(address, text);
      ParseStringsDataSingle(line, RateAll);
      ParseStringsDataSingle("", RateAll);
      assert Strip("") == "";
      ParseStringsDataAppend([line], [""], RateAll);
    }
    assert [line] + [""] == [line, ""];
  }
}
